=== FILE: README.md ===
# Image and catalog documentation generators, modelled in Dafny

The scripts modelled here write the documentation of a family of container
images published to the public AWS registry `public.ecr.aws/<alias>/<group>/<name>`:

- `run_image_readme.py` writes the readme of one image. It pulls the image,
  reads its architecture and runs diagnostic commands in throw-away containers:
  `cat /etc/os-release`, `env`, `apk info` or else `apt list`, and
  `ls -1 /usr/local/bin`. Their output is parsed into the facts the readme
  template shows.
- `generate_image_readme.py` does the same for every directory of the source
  tree. It differs in four ways:
  - it splits the env, package and local-bin output into lines without
    stripping it first (the os-release output is stripped);
  - it keeps the quotes around os-release values;
  - its package fallback catches every DockerException, not only
    ContainerError and APIError;
  - it builds untagged image references without defaults for alias and group.
- `generate_main_readme.py` lists the registry's repositories under `<group>/`
  and sorts them by name. For each one it picks the image and tag to show and
  its size, which gives the numbered rows of the main readme.
- `docs_ecr_image_list.py` builds the same rows for a notebook.

The model is purely functional. The container runtime and the registry are
inputs: a pull result, a function from platform and command to that
command's outcome, a repository listing, and a function from repository name
to its `describe_images` answer. Everything the scripts decide from those
answers is modelled and proved:

- the parsing;
- the fallbacks;
- the references;
- the image selection rule;
- the tag choice;
- the sizes;
- the row numbering, grouping and sorting.

Modules:

| module | file | contents |
|---|---|---|
| `Wrappers` | wrappers.dfy | `Option` |
| `Text` | text.dfy | `str.strip`, `str.strip('"')`, `split(sep, 1)`, `splitlines` |
| `NameOrder` | name_order.dfy | Python's string order; `sorted` as an insertion sort |
| `KeyValue` | key_value.dfy | the `KEY=VALUE` parser both image scripts use, with or without unquoting |
| `Container` | container.dfy | commands, command outcomes, pull results, the fallback chain, the readme facts |
| `RunImageReadme` | run_image_readme.dfy | the single-image generator |
| `GenerateImageReadme` | generate_image_readme.dfy | the batch generator and how it differs from the single-image one |
| `Registry` | registry.dfy | repository listing and filtering, the image selection rule, tag and size, catalog rows |
| `MainReadme` | main_readme.dfy | the main readme's catalog, as functions |
| `EcrImageList` | ecr_image_list.dfy | the notebook's catalog, with the comprehension, `max` and `next` it shares with the main readme rendered as loops, proved equal to `MainReadme` |

## Model

| member | source | states |
|---|---|---|
| `Text.Strip` | run_image_readme.py:89 | `strip(chars)` removes every leading and trailing stripped character: the result is a slice of the input, everything outside it is stripped and its own ends are not |
| `Text.SplitFirst` | run_image_readme.py:88 | `split("=", 1)` gives a head free of the separator, and head, separator and tail rebuild the line |
| `Text.SplitFirstOfJoin` | generate_image_readme.py:77 | the split finds the first separator, so the key never contains `=` and the value keeps any later `=` |
| `Text.SplitLines` | run_image_readme.py:86 | `splitlines` gives lines without line breaks, and no lines exactly for the empty text |
| `Text.SplitLinesOfTerminated` | generate_image_readme.py:106 | splitting lines each followed by a line break gives back those lines |
| `Text.TerminatedOfSplitLines` | generate_image_readme.py:106 | rejoining the lines restores the text, up to one final line break |
| `NameOrder.LessTransitive` | generate_main_readme.py:99-102 | the string order used by `sorted` is transitive |
| `NameOrder.LessTotal` | generate_main_readme.py:99-102 | any two distinct names are ordered one way or the other |
| `NameOrder.InsertSorted` | generate_main_readme.py:99-102 | inserting a name into a sorted list keeps it sorted |
| `NameOrder.Sort` | generate_main_readme.py:99-102 | `sorted(repos, key=name)` returns a sorted permutation of its input |
| `NameOrder.SortedPermutationUnique` | docs_ecr_image_list.py:83-86 | two sorted permutations of the same names are equal, so the order of the listing cannot show in the catalog |
| `KeyValue.KeyOf` | run_image_readme.py:87-88 | the key is a prefix of the line followed by `=` and contains no `=`, so it is the text before the first `=` |
| `KeyValue.ValueOf` | run_image_readme.py:88-89 | without unquoting, key, `=` and value put back together give the line, so the value is everything after the first `=`, kept verbatim; with unquoting it is `strip('"')` of that text and neither starts nor ends with `"` |
| `KeyValue.Parse` | run_image_readme.py:84-90 | keys contain no `=`; with unquoting, no value starts or ends with `"` |
| `KeyValue.KeysAreDeclared` | run_image_readme.py:86-89 | a key is in the dictionary exactly when some line containing `=` declares it |
| `KeyValue.LastOccurrenceWins` | run_image_readme.py:89 | a key declared on several lines takes the value of the last of them |
| `KeyValue.Assignments` | run_image_readme.py:87 | the lines kept are exactly the lines that contain `=` |
| `KeyValue.OnlyAssignmentsMatter` | generate_image_readme.py:77 | lines without `=` do not change the dictionary |
| `KeyValue.UnquoteIsStripOfVerbatim` | run_image_readme.py:89 | unquoted parsing has the same keys as verbatim parsing, each value being `strip('"')` of the verbatim one |
| `Container.FallbackChain` | run_image_readme.py:92-100 | the commands tried are a prefix of the chain and all but the last failed with a handled exception; a success gives the listing of its output, an unhandled exception escapes with that exception, and a handled failure of the last command tried means every command was tried and the listing is empty |
| `Container.HandledFailureMovesOn` | run_image_readme.py:93-97 | a handled failure of the first command leaves the result to the rest of the chain, with that command added in front of those tried |
| `RunImageReadme.ParseKeyValueOutput` | run_image_readme.py:84-90 | the keys are exactly the keys declared in the stripped output; none contains `=` and no value is quoted |
| `RunImageReadme.OsReleaseExample` | run_image_readme.py:84-90 | `ID="alpine"`, `VERSION_ID=3.18`, `NOTAG` parse to `ID -> alpine`, `VERSION_ID -> 3.18` |
| `RunImageReadme.RunCommandWithFallback` | run_image_readme.py:92-100 | `apk info` first, `apt list` only when it raised a ContainerError or APIError, an empty listing when both did; any other exception escapes; the output used is stripped first |
| `RunImageReadme.RunCommandWithFallbackIsChain` | run_image_readme.py:92-100 | the nested handlers are the two-step fallback chain apk, apt catching ContainerError and APIError |
| `RunImageReadme.ImageUri` | run_image_readme.py:117 | the `:latest` reference, with the environment's alias and group or `dev1-sg` and `base`, can be read back into alias, group and name when alias and group have no `/` |
| `RunImageReadme.ImageUriIsCatalogUri` | run_image_readme.py:117 | the single-image reference is the main readme's URI of repository `<group>/<name>` followed by `:latest` |
| `RunImageReadme.Introspect` | run_image_readme.py:122-150 | a readme is produced exactly when the pull and the os-release, env and local-bin commands succeed and no exception escapes the package fallback; it holds the parsed os-release fields, the stripped env and local-bin lines and the fallback's package lines |
| `RunImageReadme.PackageProbeNeverAborts` | run_image_readme.py:132 | while the package commands fail only with ContainerError or APIError, their outcomes never decide whether a readme is produced, and change only its package lines |
| `RunImageReadme.UnhandledPackageErrorAborts` | run_image_readme.py:93-95 | any other exception from `apk info`, such as undecodable output, escapes the fallback and no readme is produced |
| `RunImageReadme.Readme` | run_image_readme.py:116-156 | a readme is written exactly when the pull, os-release, env, the package fallback and local-bin all succeed on the reference; it names the `:latest` reference built from the environment, which reads back into alias, group and name; an image that fails to pull gives no readme |
| `RunImageReadme.ReadmeUsesOnlyItsReference` | run_image_readme.py:116-134 | the pull and every diagnostic command run on that reference alone: runtimes that agree on it give the same readme, whatever they do for other images |
| `GenerateImageReadme.ParseKv` | generate_image_readme.py:76-77 | the keys are exactly the keys declared in the stripped output and contain no `=` |
| `GenerateImageReadme.ParseKvKeepsQuotes` | generate_image_readme.py:76-77 | the batch parser finds the same keys as the single-image one, whose values are `strip('"')` of the batch parser's values |
| `GenerateImageReadme.GetPkgs` | generate_image_readme.py:79-87 | `apk info` first, `apt list` only when it raised a DockerException, an empty listing when both did; any other exception escapes; the output is split without stripping |
| `GenerateImageReadme.GetPkgsIsChain` | generate_image_readme.py:79-87 | the nested handlers are the two-step fallback chain apk, apt catching every DockerException |
| `GenerateImageReadme.PackageListingsAgreeOnTidyOutput` | generate_image_readme.py:81-84 | both scripts list the same packages whenever the output they use has no surrounding whitespace and no DockerException other than ContainerError and APIError was raised |
| `GenerateImageReadme.OtherDockerErrorSplitsFallbacks` | generate_image_readme.py:82 | a DockerException that is neither ContainerError nor APIError escapes the single-image fallback but sends this one on to `apt list` |
| `GenerateImageReadme.TrailingBlankLineKept` | generate_image_readme.py:81 | a listing ending in a blank line keeps an empty last package here and not in the single-image script |
| `GenerateImageReadme.BaseName` | generate_image_readme.py:96 | the base name has no `/`, ends the path, and follows a `/` unless it is the whole path |
| `GenerateImageReadme.ImageName` | generate_image_readme.py:96 | the image name is a single path component |
| `GenerateImageReadme.ImageNameOfGlobMatch` | generate_image_readme.py:95-96 | a directory `<src>/<name>/` found by the glob is imaged under `<name>` |
| `GenerateImageReadme.ImageUri` | generate_image_readme.py:97 | for every alias and group, set or unset, the batch reference plus `:latest` is the single-image reference built from the f-string renderings, an unset value showing as the text `None` in its slot (right after the host for the alias); it reads back into those renderings and the name when they contain no `/` |
| `GenerateImageReadme.Introspect` | generate_image_readme.py:102-125 | a readme is produced exactly when the pull and the os-release, env and local-bin commands succeed and no exception escapes `get_pkgs`; it holds the quoted os-release fields, the unstripped lines and the package lines |
| `GenerateImageReadme.PackageProbeNeverAborts` | generate_image_readme.py:107 | while the package commands fail only with DockerExceptions, their outcomes never decide whether a readme is produced, and change only its package lines |
| `GenerateImageReadme.UnhandledPackageErrorAborts` | generate_image_readme.py:80-82 | an exception from `apk info` that is no DockerException, such as undecodable output, escapes `get_pkgs` and no readme is produced for that image |
| `GenerateImageReadme.Outcome` | generate_image_readme.py:96-130 | a directory's image name is the `/`-free last component of its path; it gets a readme exactly when the pull, os-release, env, `get_pkgs` and local-bin all succeed on the reference built from that name, and the readme names that reference; an image that fails to pull gives none |
| `GenerateImageReadme.ProcessAll` | generate_image_readme.py:95-133 | one outcome per directory the glob found, entry `i` being the outcome of directory `i` alone |
| `GenerateImageReadme.OneImageChangesOnlyItself` | generate_image_readme.py:102-133 | an image that fails to pull, pulls differently or runs differently changes no other directory's outcome, since the handler moves on to the next directory |
| `Registry.KeepMatching` | generate_main_readme.py:47-51 | a name is kept exactly when it is listed and starts with the prefix; with no prefix everything is kept |
| `Registry.KeepMatchingAppend` | generate_main_readme.py:47-51 | filtering two parts of a listing is filtering each, in order |
| `Registry.KeepMatchingCounts` | generate_main_readme.py:47-51 | every matching name is kept as often as it is listed, every other name not at all |
| `Registry.KeepMatchingMultiset` | docs_ecr_image_list.py:37-41 | listings with the same names in any order keep the same names |
| `Registry.GetRepositories` | generate_main_readme.py:42-57 | a listing failure propagates; otherwise the names are those of every page that match the prefix |
| `Registry.GetRepositoriesPageByPage` | docs_ecr_image_list.py:33-46 | the result is each page's matching names, page after page |
| `Registry.ChosenIsUnique` | generate_main_readme.py:68-73 | at most one image meets the selection rule |
| `Registry.PositionsFromMatch` | generate_main_readme.py:68-70 | the filtered images are exactly the images with a non-`latest` tag, in listing order |
| `Registry.PreferredPoolNonEmpty` | generate_main_readme.py:68-71 | the filtered list is empty exactly when no image has a non-`latest` tag, which is when `or images` takes over |
| `Registry.MaxPushedFrom` | generate_main_readme.py:73 | `max` by push time returns an image pushed no earlier than any other and strictly later than every one before it |
| `Registry.ChosenImageMeetsSpec` | generate_main_readme.py:68-73 | the image shown is the specified one: among images with a non-`latest` tag if there are any, else among all, the first of the latest pushed |
| `Registry.ChosenAmongPreferred` | generate_main_readme.py:68-73 | when some image has a non-`latest` tag, the newest filtered image is the specified one |
| `Registry.FirstNonLatestFrom` | generate_main_readme.py:76 | the first tag that is not `latest`, with only `latest` tags before it |
| `Registry.PickTag` | generate_main_readme.py:75-76 | no tags show `<none>`; otherwise the tag shown is a tag of the image preceded only by `latest` tags, and is `latest` only when every tag is |
| `Registry.SizeMb` | generate_main_readme.py:77-79 | the size in MB is non-negative and times 1024 * 1024 gives the size in bytes, a missing size counting as 0 |
| `Registry.SizeExample` | generate_main_readme.py:79 | 10485760 bytes are 10 MB |
| `Registry.Summarize` | generate_main_readme.py:68-81 | a repository with images shows the tag and size of the one image the selection rule specifies |
| `Registry.SummaryAvoidsLatest` | generate_main_readme.py:68-76 | a repository with an image with a non-`latest` tag never shows `latest` |
| `Registry.Group` | generate_main_readme.py:112 | a name with `/` is grouped under the text before its first `/`, any other under `-` |
| `Registry.GroupOfPrefixed` | generate_main_readme.py:100-112 | a repository listed under `<group>/` is grouped under that group when the group has no `/` |
| `Registry.ItemsFrom` | generate_main_readme.py:104-116 | one row per name, numbered consecutively from the first number, with its name, group and URI |
| `Registry.SortedItemsFormCatalog` | generate_main_readme.py:99-116 | the rows of the sorted matching names form a catalog of the listing: sorted, exactly the matching names, numbered 1..n, URIs under the alias, every name under `<group>/`, each row's group the text before its name's first `/`, which is the configured group when that has no `/` |
| `MainReadme.LatestImageInfo` | generate_main_readme.py:59-88 | a missing repository, a failed describe and an empty repository show `<none>` and 0; otherwise the tag and size are those of the specified image, the tag is not `latest` when avoidable, and the size is non-negative |
| `MainReadme.Catalog` | generate_main_readme.py:99-116 | no catalog exactly when listing failed, which re-raises and aborts the script before anything is written; an empty listing gives an empty catalog, still rendered; otherwise the rows form a catalog of the listing, each with the tag and size shown for its repository |
| `MainReadme.UntaggedRepositoryShowsNone` | generate_main_readme.py:75-76 | a repository whose images have no tags shows `<none>` |
| `MainReadme.CatalogIgnoresPaging` | generate_main_readme.py:47-48 | how the listing is paginated does not change the catalog |
| `MainReadme.CatalogIgnoresListingOrder` | generate_main_readme.py:99-102 | the order in which repositories are listed does not change the catalog |
| `EcrImageList.NonLatest` | docs_ecr_image_list.py:56 | the comprehension keeps exactly the images with a non-`latest` tag, in order |
| `EcrImageList.Newest` | docs_ecr_image_list.py:57 | the `max` loop finds the first of the latest pushed images |
| `EcrImageList.ShownTag` | docs_ecr_image_list.py:59-60 | the `next` loop picks the tag the selection rule specifies |
| `EcrImageList.LatestImageInfo` | docs_ecr_image_list.py:48-70 | the notebook shows the same tag and size as the main readme for every `describe_images` answer |
| `EcrImageList.Catalog` | docs_ecr_image_list.py:83-99 | the notebook's rows are the main readme's rows and form a catalog of the listing |
| `EcrImageList.Rows` | docs_ecr_image_list.py:88-99 | the loop over `enumerate(repos, 1)` builds the rows of the functional catalog, one per name |
| `EcrImageList.NextRow` | docs_ecr_image_list.py:89-99 | the row appended at step `i` is row `i` of the functional catalog |

## Left out

- Registry login: the authorization token, its base64 decoding and the login call are left out. They only make the pulls possible.
- Streaming pull progress: the pull is its outcome, the image's `Architecture` attribute or a failure. A failure to read the attribute counts as a failed pull.
- Exceptions: a failed command is the exception that leaves `run_container_command` or `run_cmd`, sorted into ContainerError, APIError, other DockerException and anything else. A ContainerError whose stderr is not UTF-8 makes the logging handler raise a UnicodeDecodeError; the runtime input reports that case as "anything else". Messages, stderr and exception chaining are not represented.
- `RunImageReadme.PackageProbeNeverAborts`: covers only package commands that fail with the ContainerError and APIError the fallback catches. Other exceptions, such as undecodable output or a dropped connection, escape and abort the readme, as `RunImageReadme.UnhandledPackageErrorAborts` states.
- `GenerateImageReadme.PackageProbeNeverAborts`: covers only package commands that fail with a DockerException. Other exceptions escape `get_pkgs` and abort that image's readme, as `GenerateImageReadme.UnhandledPackageErrorAborts` states.
- Template reading, Jinja rendering, notebook creation, file writing and logging are I/O and are left out. So is the failure to read a template, which ends the try block like a failed command.
- The timestamp printed in each document is left out. It comes from the clock.
- Command-line handling is left out: the argument count check, the source directory check and the glob itself. The glob's matches are an input list.
- Environment variables are parameters. `Option` stands for unset, and the region, which only picks the endpoint, is left out.
- Registry responses are inputs. A repository is modelled by its name alone, since no other field is read, and pagination is modelled as a list of pages.
- `Text.SplitLines`: `splitlines` is modelled with `\n` as the only line break. Python also breaks at `\r`, `\r\n`, `\v`, `\f` and a few Unicode separators.
- `GenerateImageReadme.ImageName`: `os.path.normpath` is modelled only as removing trailing `/`. Collapsing `.`, `..` and repeated separators inside the path is not modelled. Glob matches of the form `<src>/<name>/` need none of it.
- `Registry.ChosenImageMeetsSpec`: every image carries an integer push time. A missing `imagePushedAt` is not modelled. In Python it is keyed as the naive `datetime.min`, and `max` compares it with the timezone-aware push times only when the pool holds images with and without one. Then the comparison raises a TypeError, the handler catches it, and the repository shows `<none>` and 0. With a single image in the pool there is no comparison and that image is shown. When no image in the pool has a push time, all keys are equal and the first image is shown.
- `Registry.SizeMb`: sizes are exact reals. The `%.2f` formatting of the row, and the integer `0` returned on the error paths as opposed to `0.0`, are not represented.
- Sorting uses a key on the repository name only. Stability is not observable because repositories are names here.

=== FILE: container.dfy ===
/** The container runtime as the image-readme scripts see it. Pulling an
    image and running a command in an ephemeral container from it are
    calls into the runtime, so they appear here only as their results: the
    caller passes them in, and the model decides what happens next. */
module Container {
  import opened Wrappers

  /** The diagnostic commands run inside a container from the image:
      `cat /etc/os-release`, `env`, `apk info`,
      `sh -c 'apt list | tail -n +2'` and `ls -1 /usr/local/bin`. */
  datatype Command = CatOsRelease | Env | ApkInfo | AptList | ListLocalBin

  /** The exception a command run raises to its caller. */
  datatype Failure =
    | ContainerError    // the command exited non-zero or could not start
    | ApiError          // the daemon refused the request
    | OtherDockerError  // any other DockerException
    | OtherError        // not a DockerException: undecodable output, a dropped connection

  /** One command run: its standard output decoded as text, or the
      exception the run raised. */
  datatype CmdResult = Ok(out: string) | Fail(failure: Failure)

  /** The exceptions the single-image script's fallback catches,
      `(ContainerError, APIError)`. */
  predicate ContainerOrApi(f: Failure) {
    f.ContainerError? || f.ApiError?
  }

  /** The exceptions the batch script's fallback catches, `DockerException`
      and its subclasses. */
  predicate DockerException(f: Failure) {
    !f.OtherError?
  }

  /** `r` is a failure that `caught` handles. */
  predicate CaughtBy(r: CmdResult, caught: Failure -> bool) {
    r.Fail? && caught(r.failure)
  }

  /** `r` is a failure that escapes a handler for `caught`. */
  predicate EscapesFrom(r: CmdResult, caught: Failure -> bool) {
    r.Fail? && !caught(r.failure)
  }

  /** The runtime's answer to each command, for one image on one platform. */
  type Runner = Command -> CmdResult

  /** The runtime's answer to each command on each platform `linux/<arch>`. */
  type Runtime = (string, Command) -> CmdResult

  /** The runner for one platform. */
  function OnPlatform(run: Runtime, arch: string): Runner {
    cmd => run(arch, cmd)
  }

  /** Pulling the image and reading its metadata: the value of its
      `Architecture` attribute (absent when the attribute is), or a failure. */
  datatype PullResult = Pulled(architecture: Option<string>) | PullFailed

  /** The architecture reported for an image, "unknown" when absent. */
  function ArchitectureOf(architecture: Option<string>): string {
    architecture.GetOr("unknown")
  }

  /** A package listing: the lines obtained, or the exception that escaped
      the handlers; either way with the commands run, in the order they
      were run. */
  datatype Probe = Lines(lines: seq<string>, tried: seq<Command>) | Escaped(failure: Failure, tried: seq<Command>)

  /** The package commands, whose failures a fallback may catch. */
  predicate IsPackageCommand(cmd: Command) {
    cmd == ApkInfo || cmd == AptList
  }

  /** On every platform, each failure of a package command is one `caught`
      handles. */
  ghost predicate PackageFailuresCaught(run: Runtime, caught: Failure -> bool) {
    forall arch: string, cmd: Command :: IsPackageCommand(cmd) && run(arch, cmd).Fail? ==> caught(run(arch, cmd).failure)
  }

  /** What running `cmds` as a fallback chain may give: the commands tried
      are a prefix of the chain, every one but the last failed with an
      exception `caught` handles, and the last one settles the result. A
      success gives `post` of its output; a failure `caught` does not handle
      escapes with that exception; a handled failure means the whole chain
      was tried and the listing is empty. */
  ghost predicate SettledBy(run: Runner, cmds: seq<Command>, post: string -> seq<string>,
                            caught: Failure -> bool, p: Probe) {
    && p.tried <= cmds
    && (|cmds| > 0 ==> |p.tried| > 0)
    && (forall i :: 0 <= i < |p.tried| - 1 ==> CaughtBy(run(p.tried[i]), caught))
    && (|p.tried| > 0 && run(p.tried[|p.tried| - 1]).Ok? ==>
          p == Lines(post(run(p.tried[|p.tried| - 1]).out), p.tried))
    && (|p.tried| > 0 && EscapesFrom(run(p.tried[|p.tried| - 1]), caught) ==>
          p == Escaped(run(p.tried[|p.tried| - 1]).failure, p.tried))
    && ((|p.tried| == 0 || CaughtBy(run(p.tried[|p.tried| - 1]), caught)) ==> p == Lines([], cmds))
  }

  /** Reference semantics of a fallback chain: run `cmds` in order. The
      first success gives the listing; a failure that `caught` handles
      moves on to the next command; any other failure escapes at once. */
  function FallbackChain(run: Runner, cmds: seq<Command>, post: string -> seq<string>,
                         caught: Failure -> bool): (p: Probe)
    ensures SettledBy(run, cmds, post, caught, p)
  {
    if |cmds| == 0 then Lines([], [])
    else
      match run(cmds[0])
      case Ok(out) => Lines(post(out), [cmds[0]])
      case Fail(f) =>
        if !caught(f) then Escaped(f, [cmds[0]])
        else
          var rest := FallbackChain(run, cmds[1..], post, caught);
          HandledFailureMovesOn(run, cmds, post, caught, rest);
          rest.(tried := [cmds[0]] + rest.tried)
  }

  /** A handled failure of the first command hands the chain over to the
      rest of the commands. */
  lemma HandledFailureMovesOn(run: Runner, cmds: seq<Command>, post: string -> seq<string>,
                              caught: Failure -> bool, rest: Probe)
    requires |cmds| > 0 && CaughtBy(run(cmds[0]), caught)
    requires SettledBy(run, cmds[1..], post, caught, rest)
    ensures SettledBy(run, cmds, post, caught, rest.(tried := [cmds[0]] + rest.tried))
  {
    var p := rest.(tried := [cmds[0]] + rest.tried);
    assert p.tried <= cmds by {
      assert cmds == [cmds[0]] + cmds[1..];
    }
    assert forall i :: 0 <= i < |p.tried| - 1 ==> CaughtBy(run(p.tried[i]), caught) by {
      forall i | 0 <= i < |p.tried| - 1 ensures CaughtBy(run(p.tried[i]), caught) {
        if i > 0 {
          assert p.tried[i] == rest.tried[i - 1];
        }
      }
    }
    if |rest.tried| > 0 {
      assert p.tried[|p.tried| - 1] == rest.tried[|rest.tried| - 1];
    } else {
      assert |cmds| == 1 && p == Lines([], cmds);
    }
  }

  /** What one image's readme is rendered from. */
  datatype ImageFacts = ImageFacts(
    image: string,
    arch: string,
    osName: Option<string>,
    osVersionId: Option<string>,
    osId: Option<string>,
    envVars: seq<string>,
    pkgVars: seq<string>,
    pkgLocal: seq<string>)
}

=== FILE: ecr_image_list.dfy ===
/** The notebook generator: the same catalog as the main readme. Its script
    uses the same list comprehension, `max` and `next` as the main readme
    generator; here those built-ins are rendered as explicit loops and
    proved to compute the main readme's functions. In that logic the script
    differs from the main readme generator only in its text: `or images` is written on
    the comprehension's line, the size is divided by `1024 ** 2`, and both
    exception handlers fall through to one final `return "<none>", 0`.
    Writing the rows into a notebook cell is left to the caller. */
module EcrImageList {
  import opened Wrappers
  import opened Registry
  import NameOrder
  import MainReadme

  /** `get_latest_image_info`, with the filter, the `max` and the `next`
      as loops; it shows what the main readme generator shows, the
      fall-through `return` included. */
  method LatestImageInfo(response: DescribeImages) returns (info: ImageInfo)
    ensures info == MainReadme.LatestImageInfo(response)
  {
    match response {
      case Described(images) =>
        if |images| == 0 {
          return NoImageInfo;
        }
        var preferred := NonLatest(images);
        var target := if |preferred| > 0 then preferred else images;
        var best := Newest(target);
        var latest := target[best];
        var tag := ShownTag(latest.tags);
        assert latest == ChosenImage(images);
        return ImageInfo(tag, latest.sizeInBytes.GetOr(0) as real / BytesPerMb);
      case RepositoryNotFound =>
      case DescribeFailed =>
    }
    info := NoImageInfo;
  }

  /** `[img for img in images if any(t != "latest" for t in img tags)]`. */
  method NonLatest(images: seq<ImageDetail>) returns (preferred: seq<ImageDetail>)
    ensures preferred == NonLatestImages(images)
  {
    preferred := [];
    var i := 0;
    while i < |images|
      invariant 0 <= i <= |images|
      invariant preferred + NonLatestFrom(images, i) == NonLatestImages(images)
    {
      if HasNonLatestTag(images[i]) {
        preferred := preferred + [images[i]];
      }
      i := i + 1;
    }
  }

  /** `max(target, key=imagePushedAt)`: the position of the first of the
      latest pushed images. */
  method Newest(target: seq<ImageDetail>) returns (best: nat)
    requires |target| > 0
    ensures best == NewestIndex(target)
  {
    best := 0;
    var j := 1;
    while j < |target|
      invariant best < j <= |target|
      invariant forall m :: 0 <= m < j ==> target[m].pushedAt <= target[best].pushedAt
      invariant forall m :: 0 <= m < best ==> target[m].pushedAt < target[best].pushedAt
      invariant MaxPushedFrom(target, best, j) == NewestIndex(target)
    {
      if target[j].pushedAt > target[best].pushedAt {
        best := j;
      }
      j := j + 1;
    }
  }

  /** `next((t for t in tags if t != "latest"), tags[0] if tags else "<none>")`. */
  method ShownTag(tags: seq<string>) returns (tag: string)
    ensures tag == PickTag(tags)
  {
    var t := 0;
    while t < |tags| && tags[t] == Latest
      invariant 0 <= t <= |tags|
      invariant FirstNonLatestFrom(tags, t) == FirstNonLatestFrom(tags, 0)
    {
      t := t + 1;
    }
    tag := if t < |tags| then tags[t] else if |tags| > 0 then tags[0] else NoTag;
  }

  /** `main`'s loop: the sorted repositories under `<group>/`, enumerated
      from 1, one row each. It builds the main readme's catalog. */
  method Catalog(listing: Listing, config: Config, describe: string -> DescribeImages)
    returns (r: Option<seq<CatalogItem>>)
    ensures r == MainReadme.Catalog(listing, config, describe)
    ensures r.Some? ==> IsCatalogOf(r.value, Flatten(listing.pages), config.alias, config.group)
  {
    var repos := GetRepositories(listing, Some(config.group + "/"));
    if repos.None? {
      return None;
    }
    var names := NameOrder.Sort(repos.value);
    var items := Rows(names, describe, BaseUri(config.alias));
    return Some(items);
  }

  /** The loop body over `enumerate(repos, 1)`: row `i + 1` shows the
      name, its group, its URI and the repository's tag and size. */
  method Rows(names: seq<string>, describe: string -> DescribeImages, baseUri: string)
    returns (items: seq<CatalogItem>)
    ensures items == ItemsFrom(names, MainReadme.InfosOf(names, describe), 1, baseUri)
  {
    ghost var infos := MainReadme.InfosOf(names, describe);
    ghost var rows := ItemsFrom(names, infos, 1, baseUri);
    items := [];
    var i := 0;
    while i < |names|
      invariant 0 <= i <= |names|
      invariant items == rows[..i]
    {
      var name := names[i];
      var info := LatestImageInfo(describe(name));
      var item := Item(i + 1, name, baseUri, info);
      NextRow(names, describe, baseUri, i, item);
      items := items + [item];
      i := i + 1;
    }
    assert rows[..|names|] == rows;
  }

  /** The row the loop appends at step `i` extends the rows built so far. */
  lemma NextRow(names: seq<string>, describe: string -> DescribeImages, baseUri: string, i: nat, item: CatalogItem)
    requires i < |names|
    requires item == Item(i + 1, names[i], baseUri, MainReadme.LatestImageInfo(describe(names[i])))
    ensures var rows := ItemsFrom(names, MainReadme.InfosOf(names, describe), 1, baseUri);
            rows[..i + 1] == rows[..i] + [item]
  {
    var infos := MainReadme.InfosOf(names, describe);
    var rows := ItemsFrom(names, infos, 1, baseUri);
    assert rows[i] == Item(1 + i, names[i], baseUri, infos[i]);
    PrefixGrows(rows, i);
  }

  lemma PrefixGrows<T>(s: seq<T>, i: nat)
    requires i < |s|
    ensures s[..i + 1] == s[..i] + [s[i]]
  {
  }
}

=== FILE: generate_image_readme.dfy ===
/** The batch readme generator: introspects one image per directory under
    the source tree, `public.ecr.aws/<alias>/<group>/<directory name>`.
    Unlike the single-image generator it splits env, package and local-bin
    output into lines without `strip()` (os-release output is stripped),
    keeps the quotes around os-release values, and its package fallback
    catches every DockerException, not only ContainerError and APIError. */
module GenerateImageReadme {
  import opened Wrappers
  import opened Text
  import opened Container
  import KeyValue
  import RunImageReadme
  import Registry

  /** `parse_kv`: the stripped output read line by line; only lines
      containing '=' give an entry, split at the first '=' and kept
      verbatim; a later line overwrites an earlier one with the same key. */
  function ParseKv(output: string): (r: map<string, string>)
    ensures forall k :: k in r <==> KeyValue.Declares(SplitLines(StripSpace(output)), k)
    ensures forall k :: k in r ==> '=' !in k
  {
    KeyValue.KeysAreDeclared(SplitLines(StripSpace(output)), false);
    KeyValue.Parse(SplitLines(StripSpace(output)), false)
  }

  /** The two os-release parsers find the same keys; the single-image one's
      values are `strip('"')` of this one's. */
  lemma ParseKvKeepsQuotes(output: string)
    ensures ParseKv(output).Keys == RunImageReadme.ParseKeyValueOutput(output).Keys
    ensures forall k :: k in ParseKv(output) ==>
              RunImageReadme.ParseKeyValueOutput(output)[k] == StripQuotes(ParseKv(output)[k])
  {
    KeyValue.UnquoteIsStripOfVerbatim(SplitLines(StripSpace(output)));
  }

  /** `get_pkgs`: `apk info` first; if it raises a DockerException,
      `apt list`; if that raises one too, an empty listing. Output is split
      into lines without `strip()`. Any other exception escapes. */
  function GetPkgs(run: Runner): (p: Probe)
    ensures run(ApkInfo).Ok? ==> p == Lines(SplitLines(run(ApkInfo).out), [ApkInfo])
    ensures EscapesFrom(run(ApkInfo), DockerException) ==> p == Escaped(run(ApkInfo).failure, [ApkInfo])
    ensures CaughtBy(run(ApkInfo), DockerException) && run(AptList).Ok? ==>
              p == Lines(SplitLines(run(AptList).out), [ApkInfo, AptList])
    ensures CaughtBy(run(ApkInfo), DockerException) && EscapesFrom(run(AptList), DockerException) ==>
              p == Escaped(run(AptList).failure, [ApkInfo, AptList])
    ensures CaughtBy(run(ApkInfo), DockerException) && CaughtBy(run(AptList), DockerException) ==>
              p == Lines([], [ApkInfo, AptList])
  {
    match run(ApkInfo)
    case Ok(out) => Lines(SplitLines(out), [ApkInfo])
    case Fail(f) =>
      if !DockerException(f) then Escaped(f, [ApkInfo])
      else
        match run(AptList)
        case Ok(out) => Lines(SplitLines(out), [ApkInfo, AptList])
        case Fail(g) =>
          if !DockerException(g) then Escaped(g, [ApkInfo, AptList])
          else Lines([], [ApkInfo, AptList])
  }

  /** The nested try/except is the two-step fallback chain apk, apt that
      catches every DockerException. */
  lemma GetPkgsIsChain(run: Runner)
    ensures GetPkgs(run) == FallbackChain(run, [ApkInfo, AptList], SplitLines, DockerException)
  {
    assert [ApkInfo, AptList][1..] == [AptList];
    assert [AptList][1..] == [];
  }

  /** Both package listings try the same commands; their lines differ only
      through the `strip()`, so they agree whenever the output that was
      used has no whitespace at either end and no DockerException other
      than ContainerError and APIError was raised on the way. */
  lemma PackageListingsAgreeOnTidyOutput(run: Runner)
    requires run(ApkInfo) != Fail(OtherDockerError)
    requires run(ApkInfo).Fail? ==> run(AptList) != Fail(OtherDockerError)
    requires run(ApkInfo).Ok? ==> StripSpace(run(ApkInfo).out) == run(ApkInfo).out
    requires run(ApkInfo).Fail? && run(AptList).Ok? ==> StripSpace(run(AptList).out) == run(AptList).out
    ensures GetPkgs(run) == RunImageReadme.RunCommandWithFallback(run)
  {
  }

  /** Where the handlers part: a DockerException that is neither a
      ContainerError nor an APIError escapes the single-image fallback but
      sends the batch one on to `apt list`. */
  lemma OtherDockerErrorSplitsFallbacks(run: Runner)
    requires run(ApkInfo) == Fail(OtherDockerError)
    ensures RunImageReadme.RunCommandWithFallback(run) == Escaped(OtherDockerError, [ApkInfo])
    ensures GetPkgs(run).tried == [ApkInfo, AptList]
  {
  }

  /** A listing ending in a blank line shows where they part: the batch
      generator keeps an empty last package line, the single-image one
      does not. */
  lemma TrailingBlankLineKept(line: string)
    requires |line| > 0 && '\n' !in line && !IsSpace(line[0]) && !IsSpace(line[|line| - 1])
    ensures SplitLines(line + "\n\n") == [line, ""]
    ensures RunImageReadme.StrippedLines(line + "\n\n") == [line]
  {
    SplitLinesBlankTail(line);
    StripTwoNewlines(line);
    SplitLinesOfSingle(line);
  }

  lemma SplitLinesBlankTail(line: string)
    requires '\n' !in line
    ensures SplitLines(line + "\n\n") == [line, ""]
  {
    assert line + "\n\n" == line + "\n" + "\n";
    SplitLinesOfLine(line, "\n");
    SplitLinesOfNewline("\n");
  }

  lemma SplitLinesOfNewline(s: string)
    requires s == "\n"
    ensures SplitLines(s) == [""]
  {
    assert IndexOf(s, '\n') == 0;
    assert s[..0] == "" && s[1..] == "";
  }

  lemma StripTwoNewlines(line: string)
    requires |line| > 0 && !IsSpace(line[0]) && !IsSpace(line[|line| - 1])
    ensures StripSpace(line + "\n\n") == line
  {
    var s := line + "\n\n";
    assert s[..|line|] == line;
    assert LeadingCount(s, IsSpace) == 0;
    TwoTrailingSpaces(s);
  }

  lemma SplitLinesOfSingle(line: string)
    requires |line| > 0 && '\n' !in line
    ensures SplitLines(line) == [line]
  {
  }

  lemma TwoTrailingSpaces(s: string)
    requires |s| >= 3 && s[|s| - 1] == '\n' && s[|s| - 2] == '\n' && !IsSpace(s[|s| - 3])
    ensures TrailingCount(s, IsSpace) == 2
  {
    var t := s[..|s| - 1];
    assert t[|t| - 1] == '\n';
    assert t[..|t| - 1][|t| - 2] == s[|s| - 3];
  }

  /** `os.path.basename`: the text after the last '/'. */
  function BaseName(path: string): (r: string)
    ensures '/' !in r
    ensures |r| <= |path| && path[|path| - |r|..] == r
    ensures |r| < |path| ==> path[|path| - |r| - 1] == '/'
  {
    if |path| == 0 || path[|path| - 1] == '/' then []
    else BaseName(path[..|path| - 1]) + [path[|path| - 1]]
  }

  /** `os.path.basename(os.path.normpath(dir_path))`: the last component of
      the directory path once its trailing '/' separators are removed. */
  function ImageName(dirPath: string): (r: string)
    ensures '/' !in r
  {
    BaseName(dirPath[..|dirPath| - TrailingCount(dirPath, IsSlash)])
  }

  /** A directory the source-tree glob yields, `<src>/<name>/`, is imaged
      under `<name>`. */
  lemma ImageNameOfGlobMatch(src: string, name: string)
    requires |name| > 0 && '/' !in name
    ensures ImageName(src + "/" + name + "/") == name
  {
    var p := src + "/" + name + "/";
    assert TrailingCount(p, IsSlash) == 1 by {
      assert p[..|p| - 1][|p| - 2] == name[|name| - 1];
    }
    var t := p[..|p| - 1];
    assert t == src + "/" + name;
    BaseNameAfterSlash(src, name);
  }

  lemma {:induction false} BaseNameAfterSlash(src: string, name: string)
    requires '/' !in name
    ensures BaseName(src + "/" + name) == name
    decreases |name|
  {
    var p := src + "/" + name;
    if |name| > 0 {
      var init := name[..|name| - 1];
      assert p[..|p| - 1] == src + "/" + init;
      BaseNameAfterSlash(src, init);
      assert name == init + [name[|name| - 1]];
    }
  }

  /** Python's f-string rendering of an unset environment value. */
  function Shown(value: Option<string>): string {
    value.GetOr("None")
  }

  /** The image reference for `imageName`: the single-image reference
      without its ":latest" tag, built from the alias and group as the
      f-string renders them. This script has no defaults, so an unset alias
      or group puts the literal "None" into its slot. */
  function ImageUri(alias: Option<string>, group: Option<string>, imageName: string): (uri: string)
    ensures uri + RunImageReadme.LatestSuffix
         == RunImageReadme.ImageUri(Some(Shown(alias)), Some(Shown(group)), imageName)
    ensures alias.None? ==> Registry.PublicHost + "None/" <= uri
    ensures '/' !in Shown(alias) && '/' !in Shown(group) ==>
              RunImageReadme.ParseImageUri(uri + RunImageReadme.LatestSuffix)
                == Some((Shown(alias), Shown(group), imageName))
  {
    var uri := Registry.PublicHost + Shown(alias) + "/" + Shown(group) + "/" + imageName;
    assert uri == Registry.PublicHost + (Shown(alias) + "/") + (Shown(group) + "/" + imageName);
    TaggedReference(Shown(alias), Shown(group), imageName);
    uri
  }

  lemma TaggedReference(alias: string, group: string, imageName: string)
    ensures Registry.PublicHost + alias + "/" + group + "/" + imageName + RunImageReadme.LatestSuffix
         == RunImageReadme.ImageUri(Some(alias), Some(group), imageName)
  {
    var tail := imageName + RunImageReadme.LatestSuffix;
    assert RunImageReadme.ImageUri(Some(alias), Some(group), imageName)
        == Registry.PublicHost + (alias + ['/'] + (group + ['/'] + tail));
    RunImageReadme.ReferenceLayout(Registry.PublicHost, alias, group, imageName, RunImageReadme.LatestSuffix);
  }

  /** The body of the per-directory try block. `None` means an exception
      reached the handler, which logs it and moves on to the next directory. */
  function Introspect(image: string, pull: PullResult, run: Runtime): (r: Option<ImageFacts>)
    ensures r.Some? <==>
              && pull.Pulled?
              && run(ArchitectureOf(pull.architecture), CatOsRelease).Ok?
              && run(ArchitectureOf(pull.architecture), Env).Ok?
              && GetPkgs(OnPlatform(run, ArchitectureOf(pull.architecture))).Lines?
              && run(ArchitectureOf(pull.architecture), ListLocalBin).Ok?
    ensures r.Some? ==>
              var arch := ArchitectureOf(pull.architecture);
              var osRelease := ParseKv(run(arch, CatOsRelease).out);
              && r.value.image == image
              && r.value.arch == arch
              && r.value.osName == (if "NAME" in osRelease then Some(osRelease["NAME"]) else None)
              && r.value.osVersionId == (if "VERSION_ID" in osRelease then Some(osRelease["VERSION_ID"]) else None)
              && r.value.osId == (if "ID" in osRelease then Some(osRelease["ID"]) else None)
              && r.value.envVars == SplitLines(run(arch, Env).out)
              && r.value.pkgVars == GetPkgs(OnPlatform(run, arch)).lines
              && r.value.pkgLocal == SplitLines(run(arch, ListLocalBin).out)
  {
    match pull
    case PullFailed => None
    case Pulled(architecture) =>
      var arch := ArchitectureOf(architecture);
      match run(arch, CatOsRelease)
      case Fail(_) => None
      case Ok(osOut) =>
        var osRelease := ParseKv(osOut);
        match run(arch, Env)
        case Fail(_) => None
        case Ok(envOut) =>
          match GetPkgs(OnPlatform(run, arch))
          case Escaped(_, _) => None
          case Lines(pkgs, _) =>
            match run(arch, ListLocalBin)
            case Fail(_) => None
            case Ok(localOut) =>
              Some(ImageFacts(
                image, arch,
                RunImageReadme.Lookup(osRelease, "NAME"),
                RunImageReadme.Lookup(osRelease, "VERSION_ID"),
                RunImageReadme.Lookup(osRelease, "ID"),
                SplitLines(envOut), pkgs, SplitLines(localOut)))
  }

  /** As long as `apk` and `apt` fail only with DockerExceptions, whatever
      they do, an image's readme facts are produced or not exactly as
      before, and only the package lines can differ. */
  lemma PackageProbeNeverAborts(image: string, pull: PullResult, run1: Runtime, run2: Runtime)
    requires forall arch: string, cmd: Command :: !IsPackageCommand(cmd) ==> run1(arch, cmd) == run2(arch, cmd)
    requires PackageFailuresCaught(run1, DockerException) && PackageFailuresCaught(run2, DockerException)
    ensures Introspect(image, pull, run1).Some? == Introspect(image, pull, run2).Some?
    ensures Introspect(image, pull, run1).Some? ==>
              Introspect(image, pull, run1).value.(pkgVars := []) == Introspect(image, pull, run2).value.(pkgVars := [])
  {
    if pull.Pulled? {
      var arch := ArchitectureOf(pull.architecture);
      assert run1(arch, CatOsRelease) == run2(arch, CatOsRelease);
      assert run1(arch, Env) == run2(arch, Env);
      assert run1(arch, ListLocalBin) == run2(arch, ListLocalBin);
      GetPkgsListsWhenCaught(OnPlatform(run1, arch), run1, arch);
      GetPkgsListsWhenCaught(OnPlatform(run2, arch), run2, arch);
    }
  }

  lemma GetPkgsListsWhenCaught(run: Runner, rt: Runtime, arch: string)
    requires run == OnPlatform(rt, arch) && PackageFailuresCaught(rt, DockerException)
    ensures GetPkgs(run).Lines?
  {
    assert IsPackageCommand(ApkInfo) && IsPackageCommand(AptList);
    assert run(ApkInfo) == rt(arch, ApkInfo) && run(AptList) == rt(arch, AptList);
  }

  /** An exception from `apk info` that is no DockerException, such as
      output that is not UTF-8, escapes `get_pkgs` and reaches the
      per-directory handler: no readme for that image. */
  lemma UnhandledPackageErrorAborts(image: string, pull: PullResult, run: Runtime)
    requires pull.Pulled? && EscapesFrom(run(ArchitectureOf(pull.architecture), ApkInfo), DockerException)
    ensures Introspect(image, pull, run).None?
  {
  }

  /** What one directory of the source tree comes to: its image name and
      the introspection of its image. The readme is written exactly when the
      pull and every diagnostic on the directory's own reference succeed,
      and it names that reference. */
  function Outcome(dirPath: string, alias: Option<string>, group: Option<string>,
                   pullOf: string -> PullResult, runOf: string -> Runtime): (r: (string, Option<ImageFacts>))
    ensures r.0 == ImageName(dirPath) && '/' !in r.0
    ensures r.1.Some? ==> r.1.value.image == ImageUri(alias, group, r.0)
    ensures pullOf(ImageUri(alias, group, r.0)).PullFailed? ==> r.1.None?
    ensures var uri := ImageUri(alias, group, r.0);
            r.1.Some? <==>
              && pullOf(uri).Pulled?
              && var arch := ArchitectureOf(pullOf(uri).architecture);
                 && runOf(uri)(arch, CatOsRelease).Ok?
                 && runOf(uri)(arch, Env).Ok?
                 && GetPkgs(OnPlatform(runOf(uri), arch)).Lines?
                 && runOf(uri)(arch, ListLocalBin).Ok?
  {
    var name := ImageName(dirPath);
    var uri := ImageUri(alias, group, name);
    (name, Introspect(uri, pullOf(uri), runOf(uri)))
  }

  /** A loop whose body depends on nothing but the current item: one
      result per item, in order. */
  function ForEach<T>(items: seq<string>, body: string -> T): (r: seq<T>)
    ensures |r| == |items|
    ensures forall i :: 0 <= i < |items| ==> r[i] == body(items[i])
  {
    if |items| == 0 then []
    else [body(items[0])] + ForEach(items[1..], body)
  }

  /** `main`'s loop over the directories the glob found: one outcome per
      directory, in order, entry `i` being the outcome of directory `i`
      alone, whatever happened to the others. */
  function ProcessAll(dirPaths: seq<string>, alias: Option<string>, group: Option<string>,
                      pullOf: string -> PullResult, runOf: string -> Runtime): (r: seq<(string, Option<ImageFacts>)>)
    ensures |r| == |dirPaths|
    ensures forall i :: 0 <= i < |dirPaths| ==> r[i] == Outcome(dirPaths[i], alias, group, pullOf, runOf)
  {
    ForEach(dirPaths, dirPath => Outcome(dirPath, alias, group, pullOf, runOf))
  }

  /** A directory whose image fails to pull, pulls differently or runs
      differently changes only the outcomes of the directories naming that
      same image. */
  lemma OneImageChangesOnlyItself(dirPaths: seq<string>, alias: Option<string>, group: Option<string>,
                                  pullOf1: string -> PullResult, pullOf2: string -> PullResult,
                                  runOf1: string -> Runtime, runOf2: string -> Runtime, changed: string)
    requires forall uri :: uri != changed ==> pullOf1(uri) == pullOf2(uri) && runOf1(uri) == runOf2(uri)
    ensures forall i :: 0 <= i < |dirPaths| && ImageUri(alias, group, ImageName(dirPaths[i])) != changed ==>
              ProcessAll(dirPaths, alias, group, pullOf1, runOf1)[i] == ProcessAll(dirPaths, alias, group, pullOf2, runOf2)[i]
  {
  }
}

=== FILE: key_value.dfy ===
/** Line-oriented `KEY=VALUE` text (the format of /etc/os-release) read into
    a dictionary. Both image-readme scripts parse it the same way except
    for whether surrounding '"' characters are removed from the values, so
    that choice is the `unquote` flag here. */
module KeyValue {
  import opened Text

  /** The key of a line containing '=': the text before its first '='. */
  function KeyOf(line: string): (k: string)
    requires '=' in line
    ensures '=' !in k
    ensures |k| < |line| && line[..|k|] == k && line[|k|] == '='
  {
    var k := SplitFirst(line, '=').0;
    assert line == k + ['='] + SplitFirst(line, '=').1;
    k
  }

  /** The value of a line containing '=': everything after its first '=',
      which may itself contain '='; with `unquote`, `strip('"')` of that. */
  function ValueOf(line: string, unquote: bool): (v: string)
    requires '=' in line
    ensures !unquote ==> line == KeyOf(line) + "=" + v
    ensures unquote ==> v == StripQuotes(line[|KeyOf(line)| + 1..])
    ensures unquote ==> Unquoted(v)
  {
    var v := SplitFirst(line, '=').1;
    if unquote then StripQuotesUnquoted(v); StripQuotes(v) else v
  }

  lemma StripQuotesUnquoted(v: string)
    ensures Unquoted(StripQuotes(v))
  {
    var r := StripQuotes(v);
    if |r| > 0 {
      assert !IsQuote(r[0]) && !IsQuote(r[|r| - 1]);
    }
  }

  /** `v` neither starts nor ends with '"'. */
  predicate Unquoted(v: string) {
    |v| == 0 || (v[0] != '"' && v[|v| - 1] != '"')
  }

  /** Some line of `lines` contains '=' and has key `k`. */
  ghost predicate Declares(lines: seq<string>, k: string) {
    exists i :: DeclaresAt(lines, k, i)
  }

  /** Line `i` of `lines` contains '=' and has key `k`. */
  ghost predicate DeclaresAt(lines: seq<string>, k: string, i: int) {
    0 <= i < |lines| && '=' in lines[i] && KeyOf(lines[i]) == k
  }

  /** The lines visited in order, `result[key] = value` for each one that
      contains '=' and nothing for the others, so a later line overwrites an
      earlier one with the same key. */
  function Parse(lines: seq<string>, unquote: bool): (m: map<string, string>)
    ensures forall k :: k in m ==> '=' !in k
    ensures unquote ==> forall k :: k in m ==> Unquoted(m[k])
  {
    if |lines| == 0 then map[]
    else
      var line := lines[|lines| - 1];
      var m := Parse(lines[..|lines| - 1], unquote);
      if '=' in line then m[KeyOf(line) := ValueOf(line, unquote)] else m
  }

  /** The keys of the dictionary are exactly the keys of the lines that contain '='. */
  lemma {:induction false} KeysAreDeclared(lines: seq<string>, unquote: bool)
    ensures forall k :: k in Parse(lines, unquote) <==> Declares(lines, k)
  {
    if |lines| > 0 {
      var init := lines[..|lines| - 1];
      KeysAreDeclared(init, unquote);
      DeclaresExtended(lines);
    }
  }

  /** A key is declared by some line exactly when it is declared before the
      last line or by the last line. */
  lemma DeclaresExtended(lines: seq<string>)
    requires |lines| > 0
    ensures var init, line := lines[..|lines| - 1], lines[|lines| - 1];
            forall k :: Declares(lines, k) <==> Declares(init, k) || ('=' in line && KeyOf(line) == k)
  {
    var init, line := lines[..|lines| - 1], lines[|lines| - 1];
    forall k | Declares(init, k) ensures Declares(lines, k) {
      DeclaredEarlier(lines, k);
    }
    forall k | Declares(lines, k) ensures Declares(init, k) || ('=' in line && KeyOf(line) == k) {
      DeclaredSomewhere(lines, k);
    }
    if '=' in line {
      assert DeclaresAt(lines, KeyOf(line), |lines| - 1);
    }
  }

  lemma DeclaredEarlier(lines: seq<string>, k: string)
    requires |lines| > 0 && Declares(lines[..|lines| - 1], k)
    ensures Declares(lines, k)
  {
    var init := lines[..|lines| - 1];
    var i :| DeclaresAt(init, k, i);
    assert lines[i] == init[i];
    assert DeclaresAt(lines, k, i);
  }

  lemma DeclaredSomewhere(lines: seq<string>, k: string)
    requires |lines| > 0 && Declares(lines, k)
    ensures Declares(lines[..|lines| - 1], k) || ('=' in lines[|lines| - 1] && KeyOf(lines[|lines| - 1]) == k)
  {
    var init := lines[..|lines| - 1];
    var i :| DeclaresAt(lines, k, i);
    if i < |init| {
      assert init[i] == lines[i];
      assert DeclaresAt(init, k, i);
    } else {
      assert i == |lines| - 1;
    }
  }

  /** When a key is declared on several lines, the value comes from the last of them. */
  lemma {:induction false} LastOccurrenceWins(lines: seq<string>, unquote: bool, i: int)
    requires 0 <= i < |lines| && '=' in lines[i]
    requires forall j :: i < j < |lines| && '=' in lines[j] ==> KeyOf(lines[j]) != KeyOf(lines[i])
    ensures KeyOf(lines[i]) in Parse(lines, unquote)
    ensures Parse(lines, unquote)[KeyOf(lines[i])] == ValueOf(lines[i], unquote)
  {
    if i < |lines| - 1 {
      var init := lines[..|lines| - 1];
      assert init[i] == lines[i];
      LastOccurrenceWins(init, unquote, i);
    }
  }

  /** The lines of `lines` that contain '='. */
  function Assignments(lines: seq<string>): (r: seq<string>)
    ensures forall i :: 0 <= i < |r| ==> '=' in r[i]
    ensures forall l :: l in r <==> l in lines && '=' in l
  {
    if |lines| == 0 then []
    else
      var init := lines[..|lines| - 1];
      assert lines == init + [lines[|lines| - 1]];
      Assignments(init) + (if '=' in lines[|lines| - 1] then [lines[|lines| - 1]] else [])
  }

  /** Lines without '=' contribute nothing: parsing only the lines that
      contain '=' gives the same dictionary. */
  lemma {:induction false} OnlyAssignmentsMatter(lines: seq<string>, unquote: bool)
    ensures Parse(Assignments(lines), unquote) == Parse(lines, unquote)
  {
    if |lines| > 0 {
      var init := lines[..|lines| - 1];
      var line := lines[|lines| - 1];
      OnlyAssignmentsMatter(init, unquote);
      if '=' in line {
        var a := Assignments(init) + [line];
        assert a[..|a| - 1] == Assignments(init);
      } else {
        assert Assignments(lines) == Assignments(init);
      }
    }
  }

  /** Unquoted parsing yields the same keys as verbatim parsing, and each
      value is `strip('"')` of the verbatim one. */
  lemma {:induction false} UnquoteIsStripOfVerbatim(lines: seq<string>)
    ensures Parse(lines, true).Keys == Parse(lines, false).Keys
    ensures forall k :: k in Parse(lines, false) ==> Parse(lines, true)[k] == StripQuotes(Parse(lines, false)[k])
  {
    if |lines| > 0 {
      UnquoteIsStripOfVerbatim(lines[..|lines| - 1]);
    }
  }
}

=== FILE: main_readme.dfy ===
/** The main readme generator: one catalog row per repository under
    `<group>/` in the public registry, sorted by name, each showing the tag
    and size of the repository's preferred image. Rendering the rows into
    the template and writing the file are left to the caller. */
module MainReadme {
  import opened Wrappers
  import opened Registry
  import NameOrder

  /** `get_latest_image_info`: the tag and size shown for a repository.
      A repository that is missing, cannot be described or has no images
      shows "<none>" and 0; otherwise the shown image is the one the
      selection rule specifies, identified by its place in the response. */
  function LatestImageInfo(response: DescribeImages): (info: ImageInfo)
    ensures !response.Described? ==> info == NoImageInfo
    ensures response.Described? && |response.details| == 0 ==> info == NoImageInfo
    ensures response.Described? && |response.details| > 0 ==>
              exists k :: && IsChosen(response.details, k)
                          && info == ImageInfo(PickTag(response.details[k].tags), SizeMb(response.details[k].sizeInBytes))
    ensures response.Described? && AnyNonLatest(response.details) ==> info.tag != Latest
    ensures info.sizeMb >= 0.0
  {
    match response
    case RepositoryNotFound => NoImageInfo
    case DescribeFailed => NoImageInfo
    case Described(images) =>
      if |images| == 0 then NoImageInfo
      else
        SummaryAvoidsLatest(images);
        Summarize(images)
  }

  /** What `get_latest_image_info` returns for each name, in order. */
  function InfosOf(names: seq<string>, describe: string -> DescribeImages): (infos: seq<ImageInfo>)
    ensures |infos| == |names|
    ensures forall i :: 0 <= i < |names| ==> infos[i] == LatestImageInfo(describe(names[i]))
  {
    seq(|names|, i requires 0 <= i < |names| => LatestImageInfo(describe(names[i])))
  }

  /** `main`'s rows: the repositories under `<group>/` sorted by name and
      enumerated from 1, each described through `describe`. `None` is the
      listing failure that aborts the script before anything is written. */
  function Catalog(listing: Listing, config: Config, describe: string -> DescribeImages): (r: Option<seq<CatalogItem>>)
    ensures r.None? <==> listing.ListingFailed?
    ensures r.Some? ==> IsCatalogOf(r.value, Flatten(listing.pages), config.alias, config.group)
    ensures r.Some? ==> forall i :: 0 <= i < |r.value| ==>
              && r.value[i].latestTag == LatestImageInfo(describe(r.value[i].name)).tag
              && r.value[i].imageSizeMb == LatestImageInfo(describe(r.value[i].name)).sizeMb
  {
    match GetRepositories(listing, Some(config.group + "/"))
    case None => None
    case Some(repos) =>
      var names := NameOrder.Sort(repos);
      var infos := InfosOf(names, describe);
      SortedItemsFormCatalog(Flatten(listing.pages), config.alias, config.group, infos);
      Some(ItemsFrom(names, infos, 1, BaseUri(config.alias)))
  }

  /** A repository whose images carry no tags at all shows "<none>",
      whichever image is the newest. */
  lemma UntaggedRepositoryShowsNone(images: seq<ImageDetail>)
    requires |images| > 0
    requires forall j :: 0 <= j < |images| ==> |images[j].tags| == 0
    ensures LatestImageInfo(Described(images)).tag == NoTag
  {
    assert LatestImageInfo(Described(images)) == Summarize(images);
    ChosenImageMeetsSpec(images);
    var k :| IsChosen(images, k) && ChosenImage(images) == images[k];
  }

  /** The catalog does not depend on how the registry paginated the
      listing: only the concatenated pages matter. */
  lemma CatalogIgnoresPaging(pages1: seq<seq<string>>, pages2: seq<seq<string>>, config: Config,
                             describe: string -> DescribeImages)
    requires Flatten(pages1) == Flatten(pages2)
    ensures Catalog(Listed(pages1), config, describe) == Catalog(Listed(pages2), config, describe)
  {
  }

  /** Two listings holding the same repositories in different orders give
      the same catalog: the sort fixes the order. */
  lemma CatalogIgnoresListingOrder(listed1: seq<string>, listed2: seq<string>, config: Config,
                                   describe: string -> DescribeImages)
    requires multiset(listed1) == multiset(listed2)
    ensures Catalog(Listed([listed1]), config, describe) == Catalog(Listed([listed2]), config, describe)
  {
    var prefix := Some(config.group + "/");
    assert Flatten([listed1]) == listed1 by { assert [listed1][1..] == []; }
    assert Flatten([listed2]) == listed2 by { assert [listed2][1..] == []; }
    KeepMatchingMultiset(listed1, listed2, prefix);
    var m1 := KeepMatching(listed1, prefix);
    var m2 := KeepMatching(listed2, prefix);
    NameOrder.SortedPermutationUnique(NameOrder.Sort(m1), NameOrder.Sort(m2));
  }
}

=== FILE: name_order.dfy ===
/** Python's ordering of `str` values (code point by code point, a proper
    prefix first) and `sorted()` of a list of repository names under it. */
module NameOrder {

  /** Python's `a < b` on strings. */
  predicate Less(a: string, b: string) {
    |b| > 0 && (|a| == 0 || a[0] < b[0] || (a[0] == b[0] && Less(a[1..], b[1..])))
  }

  /** Python's `a <= b` on strings. */
  predicate LessEq(a: string, b: string) {
    !Less(b, a)
  }

  lemma {:induction false} LessIrreflexive(a: string)
    ensures !Less(a, a)
  {
    if |a| > 0 {
      LessIrreflexive(a[1..]);
    }
  }

  lemma {:induction false} LessTransitive(a: string, b: string, c: string)
    requires Less(a, b) && Less(b, c)
    ensures Less(a, c)
  {
    if |a| > 0 && a[0] == b[0] && b[0] == c[0] {
      LessTransitive(a[1..], b[1..], c[1..]);
    }
  }

  /** Two different strings are always ordered one way or the other. */
  lemma {:induction false} LessTotal(a: string, b: string)
    ensures a == b || Less(a, b) || Less(b, a)
  {
    if |a| > 0 && |b| > 0 && a[0] == b[0] {
      LessTotal(a[1..], b[1..]);
      if a[1..] == b[1..] {
        assert a == [a[0]] + a[1..] && b == [b[0]] + b[1..];
      }
    }
  }

  lemma LessAsymmetric(a: string, b: string)
    requires Less(a, b)
    ensures !Less(b, a)
  {
    if Less(b, a) {
      LessTransitive(a, b, a);
      LessIrreflexive(a);
    }
  }

  lemma LessEqTransitive(a: string, b: string, c: string)
    requires LessEq(a, b) && LessEq(b, c)
    ensures LessEq(a, c)
  {
    if Less(c, a) {
      LessTotal(a, b);
      LessTotal(b, c);
      if a == b {
      } else if b == c {
      } else {
        LessTransitive(c, a, b);
      }
    }
  }

  ghost predicate Sorted(s: seq<string>) {
    forall i, j :: 0 <= i < j < |s| ==> LessEq(s[i], s[j])
  }

  /** `x` placed before the first element of `s` that is not less than it. */
  function Insert(x: string, s: seq<string>): (r: seq<string>)
    ensures |r| == |s| + 1
    ensures multiset(r) == multiset(s) + multiset{x}
    ensures forall k :: 0 <= k < |r| ==> r[k] == x || r[k] in s
  {
    if |s| == 0 then [x]
    else if LessEq(x, s[0]) then [x] + s
    else
      assert s == [s[0]] + s[1..];
      [s[0]] + Insert(x, s[1..])
  }

  lemma {:induction false} InsertSorted(x: string, s: seq<string>)
    requires Sorted(s)
    ensures Sorted(Insert(x, s))
  {
    if |s| > 0 {
      if LessEq(x, s[0]) {
        forall j | 0 < j < |s| ensures LessEq(x, s[j]) {
          LessEqTransitive(x, s[0], s[j]);
        }
      } else {
        var rest := Insert(x, s[1..]);
        InsertSorted(x, s[1..]);
        LessAsymmetric(s[0], x);
        forall k | 0 <= k < |rest| ensures LessEq(s[0], rest[k]) {
          if rest[k] != x {
            var j :| 1 <= j < |s| && s[j] == rest[k];
            assert s[1..][j - 1] == rest[k];
          }
        }
        assert Insert(x, s) == [s[0]] + rest;
      }
    }
  }

  /** Python's `sorted(names)`: the same names, in ascending order. */
  function Sort(names: seq<string>): (r: seq<string>)
    ensures Sorted(r)
    ensures multiset(r) == multiset(names)
    ensures |r| == |names|
  {
    if |names| == 0 then []
    else
      assert names == [names[0]] + names[1..];
      InsertSorted(names[0], Sort(names[1..]));
      Insert(names[0], Sort(names[1..]))
  }

  /** A sorted arrangement of a collection of names is unique, so `Sort` is
      the only result `sorted()` can have, whatever order the names came in. */
  lemma {:induction false} SortedPermutationUnique(a: seq<string>, b: seq<string>)
    requires Sorted(a) && Sorted(b)
    requires multiset(a) == multiset(b)
    ensures a == b
    decreases |a|
  {
    if |a| > 0 {
      assert |b| > 0 by {
        assert |multiset(a)| == |a| && |multiset(b)| == |b|;
      }
      SortedHeadsEqual(a, b);
      TailMultiset(a);
      TailMultiset(b);
      SortedTail(a);
      SortedTail(b);
      SortedPermutationUnique(a[1..], b[1..]);
      assert a == [a[0]] + a[1..] && b == [b[0]] + b[1..];
    }
  }

  /** Sorted arrangements of the same names start with the same name. */
  lemma SortedHeadsEqual(a: seq<string>, b: seq<string>)
    requires Sorted(a) && Sorted(b)
    requires multiset(a) == multiset(b)
    requires |a| > 0 && |b| > 0
    ensures a[0] == b[0]
  {
    assert a[0] in multiset(b) && b[0] in multiset(a);
    var i :| 0 <= i < |b| && b[i] == a[0];
    var j :| 0 <= j < |a| && a[j] == b[0];
    LessIrreflexive(a[0]);
    LessIrreflexive(b[0]);
    assert LessEq(b[0], b[i]);
    assert LessEq(a[0], a[j]);
    LessTotal(a[0], b[0]);
  }

  lemma TailMultiset(a: seq<string>)
    requires |a| > 0
    ensures multiset(a[1..]) == multiset(a) - multiset{a[0]}
  {
    assert a == [a[0]] + a[1..];
    assert multiset(a) == multiset{a[0]} + multiset(a[1..]);
  }

  lemma SortedTail(a: seq<string>)
    requires |a| > 0 && Sorted(a)
    ensures Sorted(a[1..])
  {
    forall i, j | 0 <= i < j < |a[1..]| ensures LessEq(a[1..][i], a[1..][j]) {
      assert a[1..][i] == a[i + 1] && a[1..][j] == a[j + 1];
    }
  }
}

=== FILE: registry.dfy ===
/** The registry side shared by the two catalog generators: repository
    listings filtered by name prefix, the rule that picks the image and tag
    shown for a repository, and the numbered catalog rows. The registry's
    answers (repository pages, image details) are inputs here. */
module Registry {
  import opened Wrappers
  import opened Text
  import NameOrder

  /** The tag the selection rule avoids whenever it can. */
  const Latest: string := "latest"

  /** The tag shown when there is no tag to show. */
  const NoTag: string := "<none>"

  /** `1024 * 1024`, bytes per megabyte. */
  const BytesPerMb: real := 1048576.0

  /** One entry of `imageDetails`: its tags (an absent `imageTags` is the
      empty list), its push time, and its size in bytes when reported. */
  datatype ImageDetail = ImageDetail(tags: seq<string>, pushedAt: int, sizeInBytes: Option<nat>)

  /** The outcome of `describe_images` for one repository. */
  datatype DescribeImages = Described(details: seq<ImageDetail>) | RepositoryNotFound | DescribeFailed

  /** The tag and size shown for a repository. */
  datatype ImageInfo = ImageInfo(tag: string, sizeMb: real)

  const NoImageInfo: ImageInfo := ImageInfo(NoTag, 0.0)

  /** The public registry every image reference starts with. */
  const PublicHost: string := "public.ecr.aws/"

  /** Registry alias and repository group used when the environment sets none. */
  const DefaultAlias: string := "dev1-sg"
  const DefaultGroup: string := "base"

  /** The configuration the catalog generators read from the environment. */
  datatype Config = Config(alias: string, group: string)

  /** `get_env("AWS_ECR_PUBLIC_ALIAS", "dev1-sg")` and
      `get_env("AWS_ECR_PUBLIC_REPOSITORY_GROUP", "base")`. */
  function ConfigFromEnv(aliasEnv: Option<string>, groupEnv: Option<string>): Config {
    Config(aliasEnv.GetOr(DefaultAlias), groupEnv.GetOr(DefaultGroup))
  }

  // ---------------------------------------------------------------------
  // Repository listing

  /** The outcome of paging through `describe_repositories`: the repository
      names of each page in order, or a failure, which propagates. */
  datatype Listing = Listed(pages: seq<seq<string>>) | ListingFailed

  /** `prefix is None or name.startswith(prefix)`. */
  predicate Matches(name: string, prefix: Option<string>) {
    prefix.None? || prefix.value <= name
  }

  /** The names of `names` that match `prefix`, in their listing order. */
  function KeepMatching(names: seq<string>, prefix: Option<string>): (r: seq<string>)
    ensures forall n :: n in r <==> n in names && Matches(n, prefix)
    ensures |r| <= |names|
    ensures prefix.None? ==> r == names
  {
    if |names| == 0 then []
    else (if Matches(names[0], prefix) then [names[0]] else []) + KeepMatching(names[1..], prefix)
  }

  /** Filtering a listing in two parts is filtering each part, in order. */
  lemma {:induction false} KeepMatchingAppend(a: seq<string>, b: seq<string>, prefix: Option<string>)
    ensures KeepMatching(a + b, prefix) == KeepMatching(a, prefix) + KeepMatching(b, prefix)
  {
    if |a| > 0 {
      assert (a + b)[0] == a[0];
      assert (a + b)[1..] == a[1..] + b;
      KeepMatchingAppend(a[1..], b, prefix);
    } else {
      assert a + b == b;
    }
  }

  /** Filtering keeps every matching name as often as it was listed and
      drops every other name. */
  lemma {:induction false} KeepMatchingCounts(names: seq<string>, prefix: Option<string>, n: string)
    ensures multiset(KeepMatching(names, prefix))[n] == if Matches(n, prefix) then multiset(names)[n] else 0
  {
    if |names| > 0 {
      var head: seq<string> := if Matches(names[0], prefix) then [names[0]] else [];
      KeepMatchingCounts(names[1..], prefix, n);
      assert KeepMatching(names, prefix) == head + KeepMatching(names[1..], prefix);
      assert multiset(KeepMatching(names, prefix)) == multiset(head) + multiset(KeepMatching(names[1..], prefix));
      assert names == [names[0]] + names[1..];
      assert multiset(names) == multiset{names[0]} + multiset(names[1..]);
    }
  }

  /** Listings with the same names, in any order, keep the same names. */
  lemma KeepMatchingMultiset(a: seq<string>, b: seq<string>, prefix: Option<string>)
    requires multiset(a) == multiset(b)
    ensures multiset(KeepMatching(a, prefix)) == multiset(KeepMatching(b, prefix))
  {
    forall n ensures multiset(KeepMatching(a, prefix))[n] == multiset(KeepMatching(b, prefix))[n] {
      KeepMatchingCounts(a, prefix, n);
      KeepMatchingCounts(b, prefix, n);
    }
  }

  /** All pages, one after the other. */
  function Flatten(pages: seq<seq<string>>): seq<string> {
    if |pages| == 0 then [] else pages[0] + Flatten(pages[1..])
  }

  /** `get_repositories`: every repository of every page whose name
      matches, in page order; `None` when listing failed (the exception is
      re-raised and aborts the script). */
  function GetRepositories(listing: Listing, prefix: Option<string>): (r: Option<seq<string>>)
    ensures r.None? <==> listing.ListingFailed?
    ensures r.Some? ==> forall n :: n in r.value <==> n in Flatten(listing.pages) && Matches(n, prefix)
  {
    match listing
    case ListingFailed => None
    case Listed(pages) => Some(KeepMatching(Flatten(pages), prefix))
  }

  /** Page order is kept: the result is each page's matching names, page
      after page. */
  lemma {:induction false} GetRepositoriesPageByPage(pages: seq<seq<string>>, prefix: Option<string>)
    ensures GetRepositories(Listed(pages), prefix).value == Flatten(seq(|pages|, p requires 0 <= p < |pages| => KeepMatching(pages[p], prefix)))
  {
    var perPage := seq(|pages|, p requires 0 <= p < |pages| => KeepMatching(pages[p], prefix));
    if |pages| > 0 {
      KeepMatchingAppend(pages[0], Flatten(pages[1..]), prefix);
      GetRepositoriesPageByPage(pages[1..], prefix);
      assert perPage[1..] == seq(|pages[1..]|, p requires 0 <= p < |pages[1..]| => KeepMatching(pages[1..][p], prefix));
    }
  }

  // ---------------------------------------------------------------------
  // Which image and tag a repository shows

  /** The image carries some tag other than "latest". */
  predicate HasNonLatestTag(image: ImageDetail) {
    exists i :: 0 <= i < |image.tags| && image.tags[i] != Latest
  }

  /** Some image carries a tag other than "latest". */
  predicate AnyNonLatest(images: seq<ImageDetail>) {
    exists j :: 0 <= j < |images| && HasNonLatestTag(images[j])
  }

  /** Specification of the selection pool: the images with a non-"latest"
      tag when there are any, otherwise every image. */
  ghost predicate InPool(images: seq<ImageDetail>, j: int) {
    0 <= j < |images| && (HasNonLatestTag(images[j]) || !AnyNonLatest(images))
  }

  /** Specification of the chosen image: in the pool, pushed no earlier than
      any image of the pool, and strictly later than every pool image listed
      before it (Python's `max` keeps the first of equal keys). */
  ghost predicate IsChosen(images: seq<ImageDetail>, k: int) {
    && InPool(images, k)
    && forall j :: InPool(images, j) ==>
         images[j].pushedAt <= images[k].pushedAt && (j < k ==> images[j].pushedAt < images[k].pushedAt)
  }

  /** At most one image meets the specification. */
  lemma ChosenIsUnique(images: seq<ImageDetail>, k1: int, k2: int)
    requires IsChosen(images, k1) && IsChosen(images, k2)
    ensures k1 == k2
  {
    assert images[k1].pushedAt <= images[k2].pushedAt <= images[k1].pushedAt;
  }

  /** The images from position `i` on with a non-"latest" tag, in order. */
  function NonLatestFrom(images: seq<ImageDetail>, i: nat): seq<ImageDetail>
    requires i <= |images|
    decreases |images| - i
  {
    if i == |images| then []
    else (if HasNonLatestTag(images[i]) then [images[i]] else []) + NonLatestFrom(images, i + 1)
  }

  /** `[img for img in images if any(tag != "latest" for tag in img tags)]`. */
  function NonLatestImages(images: seq<ImageDetail>): seq<ImageDetail> {
    NonLatestFrom(images, 0)
  }

  /** `non_latest_images or images`. */
  function TargetImages(images: seq<ImageDetail>): seq<ImageDetail> {
    var preferred := NonLatestImages(images);
    if |preferred| > 0 then preferred else images
  }

  /** Where each element of `NonLatestFrom(images, i)` sits in `images`. */
  ghost function PositionsFrom(images: seq<ImageDetail>, i: nat): seq<int>
    requires i <= |images|
    decreases |images| - i
  {
    if i == |images| then []
    else (if HasNonLatestTag(images[i]) then [i] else []) + PositionsFrom(images, i + 1)
  }

  /** The filtered images are exactly the qualifying images, in their
      original order. */
  lemma {:induction false} PositionsFromMatch(images: seq<ImageDetail>, i: nat)
    requires i <= |images|
    ensures |PositionsFrom(images, i)| == |NonLatestFrom(images, i)|
    ensures forall m :: 0 <= m < |PositionsFrom(images, i)| ==>
              i <= PositionsFrom(images, i)[m] < |images|
              && NonLatestFrom(images, i)[m] == images[PositionsFrom(images, i)[m]]
              && HasNonLatestTag(images[PositionsFrom(images, i)[m]])
    ensures forall m, n :: 0 <= m < n < |PositionsFrom(images, i)| ==>
              PositionsFrom(images, i)[m] < PositionsFrom(images, i)[n]
    ensures forall j :: i <= j < |images| && HasNonLatestTag(images[j]) ==> j in PositionsFrom(images, i)
    decreases |images| - i
  {
    if i < |images| {
      PositionsFromMatch(images, i + 1);
    }
  }

  /** Python's `max(pool, key=pushedAt)` continued from position `i`, with
      `best` the winner among the first `i`: a later image replaces it only
      when pushed strictly later. */
  function MaxPushedFrom(pool: seq<ImageDetail>, best: nat, i: nat): (k: nat)
    requires best < i <= |pool|
    requires forall j :: 0 <= j < i ==> pool[j].pushedAt <= pool[best].pushedAt
    requires forall j :: 0 <= j < best ==> pool[j].pushedAt < pool[best].pushedAt
    ensures k < |pool|
    ensures forall j :: 0 <= j < |pool| ==> pool[j].pushedAt <= pool[k].pushedAt
    ensures forall j :: 0 <= j < k ==> pool[j].pushedAt < pool[k].pushedAt
    decreases |pool| - i
  {
    if i == |pool| then best
    else if pool[i].pushedAt > pool[best].pushedAt then MaxPushedFrom(pool, i, i + 1)
    else MaxPushedFrom(pool, best, i + 1)
  }

  /** Position of `max(pool, key=pushedAt)`: the first of the latest pushed. */
  function NewestIndex(pool: seq<ImageDetail>): (k: nat)
    requires |pool| > 0
    ensures k < |pool|
  {
    MaxPushedFrom(pool, 0, 1)
  }

  /** The image the selection rule picks from a non-empty image list. */
  function ChosenImage(images: seq<ImageDetail>): ImageDetail
    requires |images| > 0
  {
    var pool := TargetImages(images);
    pool[NewestIndex(pool)]
  }

  /** The comprehension, the `or` and `max` together pick the image the
      specification describes, identified by its place in the listing. */
  lemma ChosenImageMeetsSpec(images: seq<ImageDetail>)
    requires |images| > 0
    ensures exists k :: IsChosen(images, k) && ChosenImage(images) == images[k]
  {
    PreferredPoolNonEmpty(images);
    if AnyNonLatest(images) {
      assert TargetImages(images) == NonLatestImages(images);
      var k := ChosenAmongPreferred(images);
    } else {
      assert TargetImages(images) == images;
      assert IsChosen(images, NewestIndex(images));
    }
  }

  /** The filtered list is empty exactly when no image has a non-"latest" tag. */
  lemma PreferredPoolNonEmpty(images: seq<ImageDetail>)
    ensures |NonLatestImages(images)| > 0 <==> AnyNonLatest(images)
  {
    PositionsFromMatch(images, 0);
    var pos := PositionsFrom(images, 0);
    if |pos| > 0 {
      assert HasNonLatestTag(images[pos[0]]);
    }
    if AnyNonLatest(images) {
      var j0 :| 0 <= j0 < |images| && HasNonLatestTag(images[j0]);
      assert j0 in pos;
    }
  }

  /** When some image has a non-"latest" tag, the newest of the filtered
      images is the specified one. */
  lemma ChosenAmongPreferred(images: seq<ImageDetail>) returns (k: int)
    requires AnyNonLatest(images)
    requires |NonLatestImages(images)| > 0
    ensures IsChosen(images, k)
    ensures NonLatestImages(images)[NewestIndex(NonLatestImages(images))] == images[k]
  {
    PositionsFromMatch(images, 0);
    var pos := PositionsFrom(images, 0);
    var preferred := NonLatestImages(images);
    var r := NewestIndex(preferred);
    k := pos[r];
    forall j | InPool(images, j)
      ensures images[j].pushedAt <= images[k].pushedAt && (j < k ==> images[j].pushedAt < images[k].pushedAt)
    {
      assert j in pos;
      var m :| 0 <= m < |pos| && pos[m] == j;
      assert preferred[m] == images[j];
      if j < k {
        assert m < r;
      }
    }
  }

  /** Position of the first tag at or after `i` that is not "latest", or
      `|tags|` when there is none. */
  function FirstNonLatestFrom(tags: seq<string>, i: nat): (k: nat)
    requires i <= |tags|
    ensures i <= k <= |tags|
    ensures forall j :: i <= j < k ==> tags[j] == Latest
    ensures k < |tags| ==> tags[k] != Latest
    decreases |tags| - i
  {
    if i == |tags| || tags[i] != Latest then i else FirstNonLatestFrom(tags, i + 1)
  }

  /** `next((t for t in tags if t != "latest"), tags[0] if tags else "<none>")`:
      the shown tag is a tag of the image preceded only by "latest" tags,
      and it is "latest" only when every tag is; no tags at all show "<none>". */
  function PickTag(tags: seq<string>): (tag: string)
    ensures |tags| == 0 ==> tag == NoTag
    ensures |tags| > 0 ==> exists i :: 0 <= i < |tags| && tags[i] == tag && forall j :: 0 <= j < i ==> tags[j] == Latest
    ensures tag == Latest ==> forall j :: 0 <= j < |tags| ==> tags[j] == Latest
  {
    var i := FirstNonLatestFrom(tags, 0);
    if i < |tags| then tags[i]
    else if |tags| > 0 then tags[0]
    else NoTag
  }

  /** `size_bytes / (1024 * 1024)` with an absent size read as 0. */
  function SizeMb(sizeInBytes: Option<nat>): (mb: real)
    ensures mb >= 0.0
    ensures mb * BytesPerMb == sizeInBytes.GetOr(0) as real
  {
    sizeInBytes.GetOr(0) as real / BytesPerMb
  }

  /** 10,485,760 bytes are 10 MB. */
  lemma SizeExample()
    ensures SizeMb(Some(10485760)) == 10.0
  {
  }

  /** What a repository with images shows: the tag and size of the image
      the selection rule specifies. */
  function Summarize(images: seq<ImageDetail>): (info: ImageInfo)
    requires |images| > 0
    ensures exists k :: && IsChosen(images, k)
                        && info == ImageInfo(PickTag(images[k].tags), SizeMb(images[k].sizeInBytes))
  {
    ChosenImageMeetsSpec(images);
    var chosen := ChosenImage(images);
    ImageInfo(PickTag(chosen.tags), SizeMb(chosen.sizeInBytes))
  }

  /** A repository with a non-"latest" tagged image never shows "latest". */
  lemma SummaryAvoidsLatest(images: seq<ImageDetail>)
    requires |images| > 0
    ensures AnyNonLatest(images) ==> Summarize(images).tag != Latest
  {
    if AnyNonLatest(images) {
      ChosenImageMeetsSpec(images);
      var k :| IsChosen(images, k) && ChosenImage(images) == images[k];
      var t :| 0 <= t < |images[k].tags| && images[k].tags[t] != Latest;
    }
  }

  // ---------------------------------------------------------------------
  // Catalog rows

  /** `name.split("/")[0] if "/" in name else "-"`. */
  function Group(name: string): (g: string)
    ensures '/' in name ==> '/' !in g && |g| < |name| && name == g + "/" + name[|g| + 1..]
    ensures '/' !in name ==> g == "-"
  {
    if '/' in name then SplitFirst(name, '/').0 else "-"
  }

  /** A name under `<group>/` is grouped under `group` when the group
      itself has no '/'. */
  lemma GroupOfPrefixed(group: string, name: string)
    requires '/' !in group && group + "/" <= name
    ensures Group(name) == group
  {
    assert name == group + ['/'] + name[|group| + 1..];
    SplitFirstOfJoin(group, '/', name[|group| + 1..]);
  }

  /** One row of the catalog. */
  datatype CatalogItem = CatalogItem(
    number: nat,
    name: string,
    group: string,
    uri: string,
    latestTag: string,
    imageSizeMb: real)

  /** The row for `name` numbered `number`. */
  function Item(number: nat, name: string, baseUri: string, info: ImageInfo): CatalogItem {
    CatalogItem(number, name, Group(name), baseUri + "/" + name, info.tag, info.sizeMb)
  }

  /** `enumerate(repos, first)` turned into rows; `infos[i]` is what
      `get_latest_image_info` returned for `names[i]`. */
  function ItemsFrom(names: seq<string>, infos: seq<ImageInfo>, first: nat, baseUri: string): (items: seq<CatalogItem>)
    requires |infos| == |names|
    ensures |items| == |names|
    ensures forall i :: 0 <= i < |items| ==> items[i] == Item(first + i, names[i], baseUri, infos[i])
  {
    if |names| == 0 then []
    else [Item(first, names[0], baseUri, infos[0])] + ItemsFrom(names[1..], infos[1..], first + 1, baseUri)
  }

  /** The names of the rows, in row order. */
  function Names(items: seq<CatalogItem>): (names: seq<string>)
    ensures |names| == |items|
    ensures forall i :: 0 <= i < |items| ==> names[i] == items[i].name
  {
    if |items| == 0 then [] else [items[0].name] + Names(items[1..])
  }

  /** The base URI of the catalog, `public.ecr.aws/<alias>`. */
  function BaseUri(alias: string): string {
    PublicHost + alias
  }

  /** The catalog's rows are exactly the listed repositories under
      `<group>/`, sorted by name, numbered 1..n, each with its URI and
      the group its name gives; when the configured group has no '/',
      every row's group is that group. */
  ghost predicate IsCatalogOf(items: seq<CatalogItem>, listed: seq<string>, alias: string, group: string) {
    && NameOrder.Sorted(Names(items))
    && multiset(Names(items)) == multiset(KeepMatching(listed, Some(group + "/")))
    && (forall i :: 0 <= i < |items| ==> items[i].number == i + 1)
    && (forall i :: 0 <= i < |items| ==> items[i].uri == BaseUri(alias) + "/" + items[i].name)
    && (forall i :: 0 <= i < |items| ==> group + "/" <= items[i].name)
    && (forall i :: 0 <= i < |items| ==> items[i].group == Group(items[i].name))
    && ('/' !in group ==> forall i :: 0 <= i < |items| ==> items[i].group == group)
  }

  /** Rows built from the sorted matching names, numbered from 1, are a
      catalog of the listing, whatever tag and size each row shows. */
  lemma SortedItemsFormCatalog(listed: seq<string>, alias: string, group: string, infos: seq<ImageInfo>)
    requires |infos| == |NameOrder.Sort(KeepMatching(listed, Some(group + "/")))|
    ensures IsCatalogOf(ItemsFrom(NameOrder.Sort(KeepMatching(listed, Some(group + "/"))), infos, 1, BaseUri(alias)),
                        listed, alias, group)
  {
    var matching := KeepMatching(listed, Some(group + "/"));
    ItemsFormCatalog(NameOrder.Sort(matching), matching, listed, alias, group, infos);
  }

  lemma ItemsFormCatalog(names: seq<string>, matching: seq<string>, listed: seq<string>,
                         alias: string, group: string, infos: seq<ImageInfo>)
    requires matching == KeepMatching(listed, Some(group + "/"))
    requires NameOrder.Sorted(names) && multiset(names) == multiset(matching)
    requires |infos| == |names|
    ensures IsCatalogOf(ItemsFrom(names, infos, 1, BaseUri(alias)), listed, alias, group)
  {
    var items := ItemsFrom(names, infos, 1, BaseUri(alias));
    NamesOfItems(names, infos, 1, BaseUri(alias));
    RowFacts(names, infos, BaseUri(alias));
    NamesFromMatching(items, names, matching);
    PrefixedRows(items, matching, group);
  }

  /** Numbering, URI and group of each row. */
  lemma RowFacts(names: seq<string>, infos: seq<ImageInfo>, baseUri: string)
    requires |infos| == |names|
    ensures var items := ItemsFrom(names, infos, 1, baseUri);
            forall i :: 0 <= i < |items| ==>
              && items[i].name == names[i]
              && items[i].number == i + 1
              && items[i].uri == baseUri + "/" + items[i].name
              && items[i].group == Group(items[i].name)
  {
  }

  lemma NamesFromMatching(items: seq<CatalogItem>, names: seq<string>, matching: seq<string>)
    requires multiset(names) == multiset(matching)
    requires |items| == |names| && forall i :: 0 <= i < |items| ==> items[i].name == names[i]
    ensures forall i :: 0 <= i < |items| ==> items[i].name in multiset(matching)
  {
    forall i | 0 <= i < |items| ensures items[i].name in multiset(matching) {
      assert names[i] in multiset(names);
    }
  }

  /** Rows are listed under their names, in order. */
  lemma NamesOfItems(names: seq<string>, infos: seq<ImageInfo>, first: nat, baseUri: string)
    requires |infos| == |names|
    ensures Names(ItemsFrom(names, infos, first, baseUri)) == names
  {
    var items := ItemsFrom(names, infos, first, baseUri);
    assert forall i :: 0 <= i < |names| ==> Names(items)[i] == names[i];
  }

  /** Rows whose names all come from the `<group>/` listing lie under the
      group, and show it when it has no '/'. */
  lemma PrefixedRows(items: seq<CatalogItem>, matching: seq<string>, group: string)
    requires forall n :: n in matching ==> Matches(n, Some(group + "/"))
    requires forall i :: 0 <= i < |items| ==> items[i].name in multiset(matching) && items[i].group == Group(items[i].name)
    ensures forall i :: 0 <= i < |items| ==> group + "/" <= items[i].name
    ensures '/' !in group ==> forall i :: 0 <= i < |items| ==> items[i].group == group
  {
    forall i | 0 <= i < |items|
      ensures group + "/" <= items[i].name
      ensures '/' !in group ==> items[i].group == group
    {
      assert items[i].name in matching;
      if '/' !in group {
        GroupOfPrefixed(group, items[i].name);
      }
    }
  }
}

=== FILE: run_image_readme.dfy ===
/** The single-image readme generator: introspects the image named on the
    command line, `public.ecr.aws/<alias>/<group>/<name>:latest`. Its
    parser and its package listing strip whitespace around command output,
    its parser also strips '"' around values, and its package fallback
    catches only ContainerError and APIError. */
module RunImageReadme {
  import opened Wrappers
  import opened Text
  import opened Container
  import KeyValue
  import Registry

  const Host: string := Registry.PublicHost

  const LatestSuffix: string := ":latest"

  /** The lines of a command's output after `strip()`. */
  function StrippedLines(out: string): seq<string> {
    SplitLines(StripSpace(out))
  }

  /** `parse_key_value_output`: the stripped output read line by line; only
      lines containing '=' give an entry, keyed by the text before the first
      '=', valued by the rest with all surrounding '"' removed; a later line
      overwrites an earlier one with the same key. */
  function ParseKeyValueOutput(output: string): (r: map<string, string>)
    ensures forall k :: k in r <==> KeyValue.Declares(StrippedLines(output), k)
    ensures forall k :: k in r ==> '=' !in k && KeyValue.Unquoted(r[k])
  {
    KeyValue.KeysAreDeclared(StrippedLines(output), true);
    KeyValue.Parse(StrippedLines(output), true)
  }

  /** The os-release text `ID="alpine"`, `VERSION_ID=3.18`, `NOTAG` gives
      exactly ID and VERSION_ID, with the quotes around alpine removed. */
  lemma OsReleaseExample()
    ensures ParseKeyValueOutput("ID=\"alpine\"\nVERSION_ID=3.18\nNOTAG")
         == map["ID" := "alpine", "VERSION_ID" := "3.18"]
  {
    var l1, l2, l3 := "ID=\"alpine\"", "VERSION_ID=3.18", "NOTAG";
    ExampleNeedsNoStrip("ID=\"alpine\"\nVERSION_ID=3.18\nNOTAG");
    ExampleLayout("ID=\"alpine\"\nVERSION_ID=3.18\nNOTAG");
    ExampleLineFacts(l1);
    ExampleLineFacts(l2);
    ExampleLineFacts(l3);
    SplitThreeLines(l1, l2, l3);
    ExampleEntryFacts(l1, l2);
    ParseThreeLines(l1, l2, l3, true);
  }

  lemma ExampleNeedsNoStrip(out: string)
    requires out == "ID=\"alpine\"\nVERSION_ID=3.18\nNOTAG"
    ensures StripSpace(out) == out
  {
    assert LeadingCount(out, IsSpace) == 0;
    assert TrailingCount(out, IsSpace) == 0;
  }

  lemma ExampleLayout(out: string)
    requires out == "ID=\"alpine\"\nVERSION_ID=3.18\nNOTAG"
    ensures out == "ID=\"alpine\"" + "\n" + ("VERSION_ID=3.18" + "\n" + "NOTAG")
  {
  }

  lemma ExampleLineFacts(line: string)
    requires line == "ID=\"alpine\"" || line == "VERSION_ID=3.18" || line == "NOTAG"
    ensures '\n' !in line && |line| > 0
    ensures '=' in line <==> line != "NOTAG"
  {
  }

  lemma ExampleEntryFacts(l1: string, l2: string)
    requires l1 == "ID=\"alpine\"" && l2 == "VERSION_ID=3.18"
    ensures '=' in l1 && '=' in l2
    ensures KeyValue.KeyOf(l1) == "ID" && KeyValue.ValueOf(l1, true) == "alpine"
    ensures KeyValue.KeyOf(l2) == "VERSION_ID" && KeyValue.ValueOf(l2, true) == "3.18"
  {
    ExampleKeys("ID", "VERSION_ID");
    ExampleSplit(l1, "ID", "\"alpine\"");
    ExampleSplit(l2, "VERSION_ID", "3.18");
    ExampleUnquote("\"alpine\"", "3.18");
  }

  lemma ExampleKeys(k1: string, k2: string)
    requires k1 == "ID" && k2 == "VERSION_ID"
    ensures '=' !in k1 && '=' !in k2
  {
  }

  /** A line `<key>=<value>` whose key has no '=' splits back into key and
      value. */
  lemma ExampleSplit(line: string, key: string, value: string)
    requires line == key + "=" + value && '=' !in key
    ensures '=' in line && SplitFirst(line, '=') == (key, value)
  {
    assert line[|key|] == '=';
    SplitFirstOfJoin(key, '=', value);
  }

  lemma ExampleUnquote(quoted: string, bare: string)
    requires quoted == "\"alpine\"" && bare == "3.18"
    ensures StripQuotes(quoted) == "alpine" && StripQuotes(bare) == bare
  {
    assert LeadingCount(quoted, IsQuote) == 1;
    assert TrailingCount(quoted[1..], IsQuote) == 1;
    assert LeadingCount(bare, IsQuote) == 0;
    assert TrailingCount(bare, IsQuote) == 0;
  }

  lemma SplitThreeLines(l1: string, l2: string, l3: string)
    requires '\n' !in l1 && '\n' !in l2 && '\n' !in l3 && |l3| > 0
    ensures SplitLines(l1 + "\n" + (l2 + "\n" + l3)) == [l1, l2, l3]
  {
    SplitLinesOfLine(l1, l2 + "\n" + l3);
    SplitLinesOfLine(l2, l3);
    assert IndexOf(l3, '\n') == |l3|;
  }

  lemma ParseThreeLines(l1: string, l2: string, l3: string, unquote: bool)
    requires '=' in l1 && '=' in l2 && '=' !in l3
    ensures KeyValue.Parse([l1, l2, l3], unquote)
         == map[KeyValue.KeyOf(l1) := KeyValue.ValueOf(l1, unquote)][KeyValue.KeyOf(l2) := KeyValue.ValueOf(l2, unquote)]
  {
    var k1, v1 := KeyValue.KeyOf(l1), KeyValue.ValueOf(l1, unquote);
    var k2, v2 := KeyValue.KeyOf(l2), KeyValue.ValueOf(l2, unquote);
    assert [l1, l2, l3][..2] == [l1, l2];
    assert [l1, l2][..1] == [l1];
    assert [l1][..0] == [];
    assert KeyValue.Parse([l1], unquote) == map[k1 := v1];
    assert KeyValue.Parse([l1, l2], unquote) == map[k1 := v1][k2 := v2];
  }

  /** `run_command_with_fallback`: `apk info` first; if it raises a
      ContainerError or APIError, `apt list`; if that raises one too, an
      empty listing. Any other exception escapes to the caller. */
  function RunCommandWithFallback(run: Runner): (p: Probe)
    ensures run(ApkInfo).Ok? ==> p == Lines(StrippedLines(run(ApkInfo).out), [ApkInfo])
    ensures EscapesFrom(run(ApkInfo), ContainerOrApi) ==> p == Escaped(run(ApkInfo).failure, [ApkInfo])
    ensures CaughtBy(run(ApkInfo), ContainerOrApi) && run(AptList).Ok? ==>
              p == Lines(StrippedLines(run(AptList).out), [ApkInfo, AptList])
    ensures CaughtBy(run(ApkInfo), ContainerOrApi) && EscapesFrom(run(AptList), ContainerOrApi) ==>
              p == Escaped(run(AptList).failure, [ApkInfo, AptList])
    ensures CaughtBy(run(ApkInfo), ContainerOrApi) && CaughtBy(run(AptList), ContainerOrApi) ==>
              p == Lines([], [ApkInfo, AptList])
  {
    match run(ApkInfo)
    case Ok(out) => Lines(StrippedLines(out), [ApkInfo])
    case Fail(f) =>
      if !ContainerOrApi(f) then Escaped(f, [ApkInfo])
      else
        match run(AptList)
        case Ok(out) => Lines(StrippedLines(out), [ApkInfo, AptList])
        case Fail(g) =>
          if !ContainerOrApi(g) then Escaped(g, [ApkInfo, AptList])
          else Lines([], [ApkInfo, AptList])
  }

  /** The nested try/except is the two-step fallback chain apk, apt that
      catches ContainerError and APIError. */
  lemma RunCommandWithFallbackIsChain(run: Runner)
    ensures RunCommandWithFallback(run) == FallbackChain(run, [ApkInfo, AptList], StrippedLines, ContainerOrApi)
  {
    assert [ApkInfo, AptList][1..] == [AptList];
    assert [AptList][1..] == [];
  }

  /** The image reference introspected for `keyword`,
      `public.ecr.aws/<alias>/<group>/<keyword>:latest` with the
      environment's alias and group or their defaults. It determines alias,
      group and name: reading it back gives them, provided alias and group
      contain no '/' (the name may). */
  function ImageUri(alias: Option<string>, group: Option<string>, keyword: string): (uri: string)
    ensures var config := Registry.ConfigFromEnv(alias, group);
            '/' !in config.alias && '/' !in config.group ==>
              ParseImageUri(uri) == Some((config.alias, config.group, keyword))
  {
    var config := Registry.ConfigFromEnv(alias, group);
    var path := config.alias + ['/'] + (config.group + ['/'] + (keyword + LatestSuffix));
    ReadBackPath(config.alias, config.group, keyword, path);
    Host + path
  }

  /** Reads `public.ecr.aws/<alias>/<group>/<name>:latest` back into its
      alias, group and name; `None` for any other shape. */
  function ParseImageUri(uri: string): Option<(string, string, string)> {
    if !(Host <= uri) then None
    else
      var path := uri[|Host|..];
      if '/' !in path then None
      else
        var (alias, rest) := SplitFirst(path, '/');
        if '/' !in rest then None
        else
          var (group, tagged) := SplitFirst(rest, '/');
          if |tagged| < |LatestSuffix| || tagged[|tagged| - |LatestSuffix|..] != LatestSuffix then None
          else Some((alias, group, tagged[..|tagged| - |LatestSuffix|]))
  }

  lemma ReadBackPath(a: string, g: string, keyword: string, path: string)
    requires path == a + ['/'] + (g + ['/'] + (keyword + LatestSuffix))
    ensures '/' !in a && '/' !in g ==> ParseImageUri(Host + path) == Some((a, g, keyword))
  {
    if '/' !in a && '/' !in g {
      var tagged := keyword + LatestSuffix;
      assert (Host + path)[|Host|..] == path;
      SplitFirstOfJoin(a, '/', g + ['/'] + tagged);
      SplitFirstOfJoin(g, '/', tagged);
      assert tagged[|tagged| - |LatestSuffix|..] == LatestSuffix;
      assert tagged[..|tagged| - |LatestSuffix|] == keyword;
    }
  }

  /** The two ways the scripts lay out `<host><alias>/<group>/<name><tag>`
      are one text. */
  lemma ReferenceLayout(host: string, alias: string, group: string, name: string, tag: string)
    ensures host + alias + "/" + (group + "/" + name) + tag == host + (alias + ['/'] + (group + ['/'] + (name + tag)))
    ensures host + alias + "/" + group + "/" + name + tag == host + (alias + ['/'] + (group + ['/'] + (name + tag)))
  {
  }

  /** The single-image reference is the main readme's catalog URI of the
      repository `<group>/<keyword>` with the `:latest` tag added. */
  lemma ImageUriIsCatalogUri(alias: Option<string>, group: Option<string>, keyword: string, number: nat,
                             info: Registry.ImageInfo)
    ensures ImageUri(alias, group, keyword)
         == Registry.Item(number, Registry.ConfigFromEnv(alias, group).group + "/" + keyword,
                          Registry.BaseUri(Registry.ConfigFromEnv(alias, group).alias), info).uri + LatestSuffix
  {
    var config := Registry.ConfigFromEnv(alias, group);
    var item := Registry.Item(number, config.group + "/" + keyword, Registry.BaseUri(config.alias), info);
    assert item.uri == Host + config.alias + "/" + (config.group + "/" + keyword);
    assert ImageUri(alias, group, keyword) == Host + (config.alias + ['/'] + (config.group + ['/'] + (keyword + LatestSuffix)));
    ReferenceLayout(Host, config.alias, config.group, keyword, LatestSuffix);
  }

  /** The body of `main`'s try block: pull, read the architecture, run the
      diagnostics and collect what the readme shows. `None` means an
      exception reached `main`'s handler and no readme was written. */
  function Introspect(image: string, pull: PullResult, run: Runtime): (r: Option<ImageFacts>)
    ensures r.Some? <==>
              && pull.Pulled?
              && run(ArchitectureOf(pull.architecture), CatOsRelease).Ok?
              && run(ArchitectureOf(pull.architecture), Env).Ok?
              && RunCommandWithFallback(OnPlatform(run, ArchitectureOf(pull.architecture))).Lines?
              && run(ArchitectureOf(pull.architecture), ListLocalBin).Ok?
    ensures r.Some? ==>
              var arch := ArchitectureOf(pull.architecture);
              var osRelease := ParseKeyValueOutput(run(arch, CatOsRelease).out);
              && r.value.image == image
              && r.value.arch == arch
              && r.value.osName == (if "NAME" in osRelease then Some(osRelease["NAME"]) else None)
              && r.value.osVersionId == (if "VERSION_ID" in osRelease then Some(osRelease["VERSION_ID"]) else None)
              && r.value.osId == (if "ID" in osRelease then Some(osRelease["ID"]) else None)
              && r.value.envVars == StrippedLines(run(arch, Env).out)
              && r.value.pkgVars == RunCommandWithFallback(OnPlatform(run, arch)).lines
              && r.value.pkgLocal == StrippedLines(run(arch, ListLocalBin).out)
  {
    match pull
    case PullFailed => None
    case Pulled(architecture) =>
      var arch := ArchitectureOf(architecture);
      match run(arch, CatOsRelease)
      case Fail(_) => None
      case Ok(osOut) =>
        var osRelease := ParseKeyValueOutput(osOut);
        match run(arch, Env)
        case Fail(_) => None
        case Ok(envOut) =>
          match RunCommandWithFallback(OnPlatform(run, arch))
          case Escaped(_, _) => None
          case Lines(pkgs, _) =>
            match run(arch, ListLocalBin)
            case Fail(_) => None
            case Ok(localOut) =>
              Some(ImageFacts(
                image, arch,
                Lookup(osRelease, "NAME"), Lookup(osRelease, "VERSION_ID"), Lookup(osRelease, "ID"),
                StrippedLines(envOut), pkgs, StrippedLines(localOut)))
  }

  /** Python's `d.get(k)`. */
  function Lookup(m: map<string, string>, k: string): Option<string> {
    if k in m then Some(m[k]) else None
  }

  /** As long as `apk` and `apt` fail only with the ContainerError and
      APIError the fallback catches, whatever they do, the image's readme
      facts are produced or not exactly as before, and only the package
      lines can differ. */
  lemma PackageProbeNeverAborts(image: string, pull: PullResult, run1: Runtime, run2: Runtime)
    requires forall arch: string, cmd: Command :: !IsPackageCommand(cmd) ==> run1(arch, cmd) == run2(arch, cmd)
    requires PackageFailuresCaught(run1, ContainerOrApi) && PackageFailuresCaught(run2, ContainerOrApi)
    ensures Introspect(image, pull, run1).Some? == Introspect(image, pull, run2).Some?
    ensures Introspect(image, pull, run1).Some? ==>
              Introspect(image, pull, run1).value.(pkgVars := []) == Introspect(image, pull, run2).value.(pkgVars := [])
  {
    if pull.Pulled? {
      var arch := ArchitectureOf(pull.architecture);
      assert run1(arch, CatOsRelease) == run2(arch, CatOsRelease);
      assert run1(arch, Env) == run2(arch, Env);
      assert run1(arch, ListLocalBin) == run2(arch, ListLocalBin);
      FallbackListsWhenCaught(OnPlatform(run1, arch), run1, arch);
      FallbackListsWhenCaught(OnPlatform(run2, arch), run2, arch);
    }
  }

  lemma FallbackListsWhenCaught(run: Runner, rt: Runtime, arch: string)
    requires run == OnPlatform(rt, arch) && PackageFailuresCaught(rt, ContainerOrApi)
    ensures RunCommandWithFallback(run).Lines?
  {
    assert IsPackageCommand(ApkInfo) && IsPackageCommand(AptList);
    assert run(ApkInfo) == rt(arch, ApkInfo) && run(AptList) == rt(arch, AptList);
  }

  /** Any other exception from `apk info`, such as output that is not
      UTF-8, escapes the fallback and ends the try block: no readme. */
  lemma UnhandledPackageErrorAborts(image: string, pull: PullResult, run: Runtime)
    requires pull.Pulled? && EscapesFrom(run(ArchitectureOf(pull.architecture), ApkInfo), ContainerOrApi)
    ensures Introspect(image, pull, run).None?
  {
  }

  /** `main` for `keyword`: the readme is written exactly when the pull and
      every diagnostic on the `:latest` reference built from the
      environment succeed, and it names that reference. */
  function Readme(keyword: string, alias: Option<string>, group: Option<string>,
                  pullOf: string -> PullResult, runOf: string -> Runtime): (r: Option<ImageFacts>)
    ensures var config := Registry.ConfigFromEnv(alias, group);
            r.Some? ==> && r.value.image == ImageUri(alias, group, keyword)
                        && ('/' !in config.alias && '/' !in config.group ==>
                              ParseImageUri(r.value.image) == Some((config.alias, config.group, keyword)))
    ensures pullOf(ImageUri(alias, group, keyword)).PullFailed? ==> r.None?
    ensures var uri := ImageUri(alias, group, keyword);
            r.Some? <==>
              && pullOf(uri).Pulled?
              && var arch := ArchitectureOf(pullOf(uri).architecture);
                 && runOf(uri)(arch, CatOsRelease).Ok?
                 && runOf(uri)(arch, Env).Ok?
                 && RunCommandWithFallback(OnPlatform(runOf(uri), arch)).Lines?
                 && runOf(uri)(arch, ListLocalBin).Ok?
  {
    var uri := ImageUri(alias, group, keyword);
    Introspect(uri, pullOf(uri), runOf(uri))
  }

  /** `main` pulls and runs commands on that one reference only: runtimes
      that agree on it give the same readme, whatever they do for any
      other image. */
  lemma ReadmeUsesOnlyItsReference(keyword: string, alias: Option<string>, group: Option<string>,
                                   pullOf1: string -> PullResult, pullOf2: string -> PullResult,
                                   runOf1: string -> Runtime, runOf2: string -> Runtime)
    requires pullOf1(ImageUri(alias, group, keyword)) == pullOf2(ImageUri(alias, group, keyword))
    requires runOf1(ImageUri(alias, group, keyword)) == runOf2(ImageUri(alias, group, keyword))
    ensures Readme(keyword, alias, group, pullOf1, runOf1) == Readme(keyword, alias, group, pullOf2, runOf2)
  {
  }
}

=== FILE: text.dfy ===
/** The handful of Python `str` operations the scripts rely on: `strip`,
    `splitlines`, `split(sep, 1)` and `in`, over `string == seq<char>`.

    `splitlines` is modelled as splitting on '\n' only; Python also breaks
    lines at '\r', "\r\n", '\v', '\f' and a few Unicode separators. */
module Text {

  /** Python's `str.isspace()`: the characters `str.strip()` removes when
      called without arguments. */
  predicate IsSpace(c: char) {
    || ('\U{0009}' <= c <= '\U{000D}')
    || ('\U{001C}' <= c <= '\U{0020}')
    || c == '\U{0085}' || c == '\U{00A0}' || c == '\U{1680}'
    || ('\U{2000}' <= c <= '\U{200A}')
    || c == '\U{2028}' || c == '\U{2029}' || c == '\U{202F}'
    || c == '\U{205F}' || c == '\U{3000}'
  }

  /** The argument of `strip('"')`. */
  predicate IsQuote(c: char) {
    c == '"'
  }

  /** The path separator `os.path.normpath` collapses at the end. */
  predicate IsSlash(c: char) {
    c == '/'
  }

  /** Number of leading characters of `s` that `drop` accepts. */
  function LeadingCount(s: string, drop: char -> bool): (n: nat)
    ensures n <= |s|
    ensures forall i :: 0 <= i < n ==> drop(s[i])
    ensures n < |s| ==> !drop(s[n])
  {
    if |s| == 0 || !drop(s[0]) then 0 else 1 + LeadingCount(s[1..], drop)
  }

  /** Number of trailing characters of `s` that `drop` accepts. */
  function TrailingCount(s: string, drop: char -> bool): (n: nat)
    ensures n <= |s|
    ensures forall i :: |s| - n <= i < |s| ==> drop(s[i])
    ensures n < |s| ==> !drop(s[|s| - n - 1])
  {
    if |s| == 0 || !drop(s[|s| - 1]) then 0 else 1 + TrailingCount(s[..|s| - 1], drop)
  }

  /** Python's `s.strip(chars)`: removes every leading and every trailing
      character that `drop` accepts, not just one of each. The result is
      the slice of `s` starting at `LeadingCount(s, drop)`; everything of
      `s` outside it is droppable, and its own ends are not. */
  function Strip(s: string, drop: char -> bool): (r: string)
    ensures |r| <= |s|
    ensures LeadingCount(s, drop) + |r| <= |s|
    ensures r == s[LeadingCount(s, drop)..LeadingCount(s, drop) + |r|]
    ensures forall i :: 0 <= i < LeadingCount(s, drop) ==> drop(s[i])
    ensures forall i :: LeadingCount(s, drop) + |r| <= i < |s| ==> drop(s[i])
    ensures |r| > 0 ==> !drop(r[0]) && !drop(r[|r| - 1])
  {
    var t := s[LeadingCount(s, drop)..];
    t[..|t| - TrailingCount(t, drop)]
  }

  /** Python's `s.strip()`. */
  function StripSpace(s: string): string {
    Strip(s, IsSpace)
  }

  /** Python's `s.strip('"')`. */
  function StripQuotes(s: string): string {
    Strip(s, IsQuote)
  }

  /** Position of the first `c` in `s`, or `|s|` when `c` does not occur. */
  function IndexOf(s: string, c: char): (i: nat)
    ensures i <= |s|
    ensures i < |s| <==> c in s
    ensures i < |s| ==> s[i] == c
    ensures forall k :: 0 <= k < i ==> s[k] != c
  {
    if |s| == 0 || s[0] == c then 0 else 1 + IndexOf(s[1..], c)
  }

  /** Python's `s.split(sep, 1)` for an `s` that contains `sep`: the text
      before the first `sep` and everything after it. */
  function SplitFirst(s: string, sep: char): (parts: (string, string))
    requires sep in s
    ensures sep !in parts.0
    ensures s == parts.0 + [sep] + parts.1
  {
    var i := IndexOf(s, sep);
    assert s == s[..i] + [sep] + s[i + 1..];
    (s[..i], s[i + 1..])
  }

  /** Splitting at the first `sep` finds the `sep` placed after a text free of it. */
  lemma SplitFirstOfJoin(a: string, sep: char, b: string)
    requires sep !in a
    ensures SplitFirst(a + [sep] + b, sep) == (a, b)
  {
    var s := a + [sep] + b;
    assert s[|a|] == sep;
    assert forall k :: 0 <= k < |a| ==> s[k] == a[k];
    assert IndexOf(s, sep) == |a|;
    assert s[..|a|] == a && s[|a| + 1..] == b;
  }

  /** Python's `s.splitlines()` with '\n' as the only line boundary: an
      empty string has no lines, and a final '\n' does not open an empty
      last line. */
  function SplitLines(s: string): (lines: seq<string>)
    ensures forall i :: 0 <= i < |lines| ==> '\n' !in lines[i]
    ensures |s| == 0 <==> |lines| == 0
    decreases |s|
  {
    if |s| == 0 then []
    else
      var i := IndexOf(s, '\n');
      if i == |s| then [s] else [s[..i]] + SplitLines(s[i + 1..])
  }

  /** The text whose `splitlines()` is `lines`: each line followed by '\n'. */
  function Terminated(lines: seq<string>): string {
    if |lines| == 0 then [] else lines[0] + "\n" + Terminated(lines[1..])
  }

  /** Splitting a '\n'-terminated text gives back its lines. */
  lemma {:induction false} SplitLinesOfTerminated(lines: seq<string>)
    requires forall i :: 0 <= i < |lines| ==> '\n' !in lines[i]
    ensures SplitLines(Terminated(lines)) == lines
  {
    if |lines| > 0 {
      var rest := Terminated(lines[1..]);
      SplitLinesOfTerminated(lines[1..]);
      SplitLinesOfLine(lines[0], rest);
      assert lines == [lines[0]] + lines[1..];
    }
  }

  /** The first line of a text is everything before its first '\n'. */
  lemma SplitLinesOfLine(l: string, rest: string)
    requires '\n' !in l
    ensures SplitLines(l + "\n" + rest) == [l] + SplitLines(rest)
  {
    var s := l + "\n" + rest;
    IndexOfPastPrefix(l, rest);
    assert s[..|l|] == l;
    assert s[|l| + 1..] == rest;
  }

  lemma IndexOfPastPrefix(l: string, rest: string)
    requires '\n' !in l
    ensures IndexOf(l + "\n" + rest, '\n') == |l|
  {
    var s := l + "\n" + rest;
    assert s[|l|] == '\n';
    assert forall k :: 0 <= k < |l| ==> s[k] == l[k];
  }

  /** Joining the lines of `s` back with '\n' terminators restores `s`,
      up to the one final '\n' that `s` may have lacked. */
  lemma {:induction false} TerminatedOfSplitLines(s: string)
    ensures Terminated(SplitLines(s)) == if |s| == 0 || s[|s| - 1] == '\n' then s else s + "\n"
    decreases |s|
  {
    if |s| > 0 {
      var i := IndexOf(s, '\n');
      if i == |s| {
        assert SplitLines(s) == [s];
        TerminatedCons(s, []);
      } else {
        var head, rest := s[..i], s[i + 1..];
        assert SplitLines(s) == [head] + SplitLines(rest);
        TerminatedCons(head, SplitLines(rest));
        TerminatedOfSplitLines(rest);
        var restText := if |rest| == 0 || rest[|rest| - 1] == '\n' then rest else rest + "\n";
        assert Terminated(SplitLines(s)) == head + "\n" + restText;
        LineBreakAt(s, i);
      }
    }
  }

  lemma TerminatedCons(line: string, lines: seq<string>)
    ensures Terminated([line] + lines) == line + "\n" + Terminated(lines)
  {
    assert ([line] + lines)[1..] == lines;
  }

  /** A text with a '\n' at `i` is the text before it, the '\n' and the
      text after it, and re-terminating the part after it re-terminates the
      whole. */
  lemma LineBreakAt(s: string, i: nat)
    requires i < |s| && s[i] == '\n'
    ensures var rest := s[i + 1..];
            s[..i] + "\n" + (if |rest| == 0 || rest[|rest| - 1] == '\n' then rest else rest + "\n")
            == if s[|s| - 1] == '\n' then s else s + "\n"
  {
    var rest := s[i + 1..];
    assert s == s[..i] + "\n" + rest;
    if |rest| > 0 {
      assert rest[|rest| - 1] == s[|s| - 1];
    }
  }
}

=== FILE: wrappers.dfy ===
/** The optional value used wherever the scripts fall back to a default
    (`dict.get`, an unset environment variable, a missing attribute). */
module Wrappers {

  datatype Option<+T> = None | Some(value: T) {

    /** The wrapped value, or `default` when there is none (Python's `d.get(k, default)`). */
    function GetOr(default: T): (r: T)
      ensures Some? ==> r == value
      ensures None? ==> r == default
    {
      match this
      case Some(v) => v
      case None => default
    }
  }
}
